=== FILE: README.md ===
# Personal finance tracker: request rules, API client and page logic

This project models the decision logic of a small personal finance web
application and proves properties of that model in Dafny. The application
has a Flask back end over an SQLite store and three browser pages: a
dashboard, a transactions page and a savings-goals page. The model covers
three layers.

- **Server** (`app.py`). The modules `Records`, `Server` and `Summary` cover:
  - the JSON endpoints that add, update and delete transactions and goals, with
    their checks for required fields, amounts and types, in the order they run;
  - the partial-update merge;
  - the dashboard aggregation: totals, balance, spending per expense category
    sorted by amount, and the first five listed transactions.

  The SQLite tables become an abstract `Table` holding a map from id to row and
  the next AUTOINCREMENT id. The listings that the dashboard reads are inputs:
  they are the rows in the order the SQL queries return them.
- **Shared browser helpers** (`static/js/common.js`):
  - `ApiClient` covers `fetchAPI`: header merging, when the body is JSON-encoded,
    how a response is classified, which error message is chosen, and the single
    error notice raised before the error is rethrown.
  - `Notifications` covers the notification area. Newest notices go on top, the
    area is created lazily, and removal by manual close or by timeout is
    idempotent.
  - `Format` covers the fallbacks of `formatCurrency` and `formatDate`.
- **Page scripts** (`static/js/transactions_page.js`, `goals_page.js`,
  `dashboard_page.js`). These are the modules `Page`, `TransactionsPage`,
  `GoalsPage` and `DashboardPage`. Each handler is a pure function. Its inputs
  are the form values, how `fetch` settled, and the answer to `confirm`. Its
  output is the sequence of visible effects it performs, in order:
  notifications, spinner toggles, the request sent, list renderings, modal
  changes, reloads, and an uncaught rejection.

The model works with JavaScript values as decoded JSON, in `Js.Value`. It
models truthiness, `||`, property reads (which throw on null or undefined),
`String(v)` and `Number(v)`. Behaviour that belongs to the engine or the
platform is passed in as a `Js.Host` record of functions:
- `JSON.parse`;
- number-to-text rendering;
- locale currency and date rendering;
- `Date` parsing;
- string-to-number conversion.

Python's `float()` on request values is `Records.ToFloat`. It has three
outcomes: a number, a ValueError, or a TypeError, which Flask turns into a
500 page. It takes the string syntax as a parameter.

The page handlers call `fetchAPI` as written (`ApiClient.FetchApiAsWritten`).
`ApiClient.FetchApi` is the corrected reading of its error path; see Findings.

Two behaviours of the code are easy to misread:
- `formatDate` returns `'N/A'` for an empty or falsy input, not the input
  itself.
- The dashboard endpoint sends `balance` and `goals_summary`. The dashboard
  script reads `net_balance` and `goal_summary`; see Findings.

## Model

| member | source | states |
|---|---|---|
| `Records.ParseKind` | app.py:43-44 | a type is accepted exactly when it is the text `income` or `expense`, and an accepted type names the kind it parses to |
| `Records.KindRoundTrip` | app.py:43-44 | naming a kind and parsing the name gives the kind back |
| `Records.ToFloat` | app.py:34-40 | `float(v)` raises ValueError exactly for unparsable text and TypeError exactly for values that are not numbers, booleans or text; a number converts to itself, parsable text to its parsed value, and a boolean to 1.0 or 0.0 |
| `Records.Append` | app.py:46-53 | an insert puts the row under an id not in use and keeps every id below the next one |
| `Server.ObjectMap` | app.py:30 | the dict built from a decoded object has exactly the keys of the object, and each key holds the value of its last occurrence |
| `Server.AddTransaction` | app.py:28-53 | the failure cases in order: 400 for a missing field or empty body, 500 for a non-scalar amount, 400 for an unparsable or non-positive amount, then 400 for an unknown type. 201 exactly when all fields are present, the amount is a positive float and the type is known. On 201 the new row is stored under a fresh id with the request's fields and `description` defaulting to `''`; on any failure the store is unchanged |
| `Server.MergeTransaction` | app.py:91-97 | each of type, category, amount, date and description comes from the request when present and from the stored row otherwise |
| `Server.UpdateTransaction` | app.py:67-109 | 400 for an empty body; amount and type are checked before the row is looked up, whether or not it exists: 500 for a non-scalar amount, 400 for an unparsable or non-positive amount, then 400 for an unknown type, and 404 only after both pass; 200 exactly when the body is non-empty, the amount and type are acceptable and the id exists, and then only that row changes, to the merged row; otherwise the store is unchanged |
| `Server.TransactionAmountCheckedBeforeLookup` | app.py:73-89 | a non-positive amount on an id that does not exist gets 400, not 404 |
| `Server.DeleteTransaction` | app.py:111-115 | the success message exactly when the id exists, and then only that row is removed; otherwise 404 and no change |
| `Server.TransactionsStayValid` | app.py:28-115 | after any add, update or delete, every stored amount is still positive and ids are still fresh |
| `Server.CheckGoalAmounts` | app.py:124-132 | the goal amount checks in order: both conversions, then target > 0, then current >= 0; they pass exactly when both amounts are floats with target > 0 and current >= 0. A TypeError in either conversion gives 500; a ValueError gives 400 "Invalid amount format"; a target not above 0 gives 400 "Target amount must be positive"; a valid target with a negative current amount gives 400 "Current amount cannot be negative" |
| `Server.AddGoal` | app.py:118-140 | 400 when name or target_amount is missing; 201 exactly when the amount checks pass, with `current_amount` defaulting to 0 and `deadline` to null; a failed amount check answers with that check's reply; the stored row carries the request's values; otherwise the store is unchanged |
| `Server.UpdateGoal` | app.py:154-190 | 400 for an empty body; 404 for a missing id before any amount is looked at; 200 exactly when the body is non-empty, the goal exists and the merged target and current amount pass the amount checks; a failed check answers with that check's reply; on 200 each field comes from the request when present and from the stored goal otherwise, and only that goal changes |
| `Server.GoalLookupBeforeAmountCheck` | app.py:160-170 | a negative target on an id that does not exist gets 404, unlike the transaction update |
| `Server.DeleteGoal` | app.py:192-196 | the success message exactly when the id exists, and then only that goal is removed; otherwise 404 and no change |
| `Server.GoalsStayValid` | app.py:118-196 | after any add, update or delete, every stored goal has a positive target, a non-negative current amount and a fresh id |
| `Summary.BuildDashboard` | app.py:199-223 | income and expenses are the sums over the income and the expense transactions; balance is income minus expenses; income plus expenses is the sum of all listed amounts; spending is the sorted per-category accumulation; the recent list is the first min(5, n) listed transactions |
| `Summary.TotalsPartition` | app.py:204-205 | every transaction is counted once, as income or as expense |
| `Summary.KeyIndex` | app.py:211 | the category's position when it has one; no position means the category is not among the keys |
| `Summary.AccumulateOk` | app.py:208-211 | after every transaction the accumulated dict has distinct categories, each holding that category's expense total; its keys are exactly the categories with an expense; its values add up to total expenses |
| `Summary.SortKeepsDistinct` | app.py:214 | sorting the items keeps the categories distinct |
| `Summary.SortKeepsSum` | app.py:214 | sorting the items keeps their total |
| `Summary.SpendingCorrect` | app.py:208-214 | `spending_by_category`: one entry per expense category holding its expense total, no other keys, values adding up to `total_expenses`, in non-increasing order of amount |
| `Summary.Payload` | app.py:216-223 | the response object holds the totals, balance, spending, recent list and goals under `total_income`, `total_expenses`, `balance`, `spending_by_category`, `recent_transactions` and `goals_summary`, and has no `net_balance` or `goal_summary` |
| `Summary.PayloadLacks` | app.py:216-223 | no member of the response object is named `net_balance` or `goal_summary` |
| `Ordering.SortPermutes` | app.py:214 | the sort returns a permutation of its input |
| `Ordering.SortIsDescending` | app.py:214 | when every element has a key, no element of the sorted output is strictly ahead of one placed before it |
| `ApiClient.MergeHeaders` | static/js/common.js:66-71 | the headers are the defaults and the caller's; a caller key overrides the default of the same name |
| `ApiClient.Prepare` | static/js/common.js:73-76 | the body is JSON-encoded exactly when it is an object or array and the method, upper-cased, is neither GET nor HEAD (an absent method counts as neither); otherwise it is passed as is |
| `ApiClient.WriteMethodsEncode` | static/js/common.js:74-76 | with POST, PUT or DELETE an object or array body is sent as its JSON text |
| `ApiClient.FailureMessage` | static/js/common.js:81-90 | the intended error message: the envelope's `message`, else its `error`, else the status text; for a body that is not a readable JSON value, the body text, else the status text |
| `ApiClient.FailureMessageAsWritten` | static/js/common.js:83-90 | the message as the code computes it: the same for a readable envelope or a null body, the TypeError of the second body read for any other body |
| `ApiClient.Resolve` | static/js/common.js:94-101 | an ok response gives null for 204 whatever the content type, decoded JSON for a JSON content type (a SyntaxError rejects), and the body text otherwise |
| `ApiClient.Report` | static/js/common.js:102-106 | a failure raises exactly the notice `API Error: <message>` with error severity and is rethrown; a success raises nothing |
| `ApiClient.FetchApi` | static/js/common.js:64-107 | a call rejects exactly when it raises one notice, which carries the rejection's message; a network failure rejects with its message; a non-ok status rejects with the intended error message; an ok status settles as `Resolve` says |
| `ApiClient.FetchApiAsWritten` | static/js/common.js:64-107 | a call rejects exactly when it raises one notice, which carries the rejection's message; a network failure rejects with its message; a non-ok status rejects with the message the code computes; an ok status settles as `Resolve` says |
| `ApiClient.FailureReportedOnce` | static/js/common.js:91-106 | every failure, network or HTTP, is reported once and rethrown, never swallowed |
| `ApiClient.ErrorEnvelopeReported` | static/js/common.js:84-85 | a 400 whose body is `{"error": e}` rejects with `e` and raises one notice `API Error: e` |
| `ApiClient.NoContentIsNull` | static/js/common.js:95-97 | a 204 resolves to null silently, whatever its content type and body |
| `ApiClient.JsonResponseDecoded` | static/js/common.js:98-100 | an ok JSON response resolves silently to the decoded value |
| `ApiClient.BodyReadTwice` | static/js/common.js:83-90 | the code and the intended reading differ only on a non-null body that is not a readable JSON value: there the code reports the second-read TypeError instead of the body text |
| `ApiClient.HtmlErrorPageWitness` | static/js/common.js:84-89 | a 500 with an HTML page as body: the code rejects with the TypeError text, the intended reading with the page text, and the notices differ |
| `ApiClient.Wire` | static/js/common.js:75 | what the server receives for a JSON-encoded body holds no undefined and no NaN at any depth (NaN becomes null, undefined members are dropped, undefined array elements become null); array elements are encoded one by one in order |
| `Notifications.FindArea` | static/js/common.js:41-56 | `getElementById` finds the first area attached to the document, or none when no area is attached |
| `Notifications.Show` | static/js/common.js:7-24 | a notice with a fresh id goes on top of the found area and nothing else changes; with no area a new one holding just the notice is created, attached only if the body exists |
| `Notifications.DomReady` | static/js/common.js:49-53 | at DOMContentLoaded every pending area is attached, with its notices unchanged |
| `Notifications.Fade` | static/js/common.js:18-27 | the fade-out mark only marks notice `id`: no area's length, attachment or notice ids change, and whether the body exists is unchanged |
| `Notifications.Remove` | static/js/common.js:28-33 | removal takes notice `id` out of every area and changes nothing else |
| `Notifications.ShowKeepsWf` | static/js/common.js:7-24 | showing keeps one element per notification and adds exactly the new id |
| `Notifications.NewestFirst` | static/js/common.js:24 | once the body exists, the new notice is first in the visible list, ahead of the earlier ones in their order |
| `Notifications.RemoveKeepsWf` | static/js/common.js:18-33 | removal takes away exactly notice `id`, one element when it was shown and none otherwise, and keeps the ids unique |
| `Notifications.FadeKeepsWf` | static/js/common.js:18-27 | fading keeps the set of ids and their uniqueness |
| `Notifications.DomReadyKeepsWf` | static/js/common.js:49-53 | attaching pending areas loses no notice |
| `Notifications.DismissTwiceIsOnce` | static/js/common.js:18-34 | a manual close followed by the timeout, or two removals, remove the notice once |
| `Notifications.AutoRemoveIsRemove` | static/js/common.js:28-33 | the timeout's parent check makes no difference: it is the plain removal |
| `Format.FormatCurrency` | static/js/common.js:115-120 | a number (NaN included) gets the locale currency text; anything else gets `String(v)` |
| `Format.CurrencyKeepsText` | static/js/common.js:116-118 | text passed in comes back unchanged |
| `Format.FormatDate` | static/js/common.js:127-144 | a falsy input gives `'N/A'`; an input that does not parse is returned unchanged; otherwise the short UTC date text |
| `Format.DateOfTextIsText` | static/js/common.js:128-133 | a string gives a string; an empty string gives `'N/A'`; an unparsable one comes back unchanged |
| `Text.BeforeFirst` | static/js/transactions_page.js:106 | `split('T')[0]` is a prefix of the input with no `'T'` in it, stopped at the first `'T'`, and is the whole input when there is none |
| `Text.IncludesIsOccurrence` | static/js/common.js:98 | `includes` holds exactly when the text occurs at some offset |
| `Text.UpperMatchesIgnoringCase` | static/js/common.js:74 | comparing an upper-cased method with `GET` or `HEAD` is equality ignoring ASCII case |
| `Text.NatTextRoundTrip` | static/js/common.js:82 | the status rendered in decimal reads back as the status |
| `Page.Await` | static/js/transactions_page.js:30-31 | before the await, the spinner goes on and exactly the prepared request is sent; the call settles as `fetchAPI` as written does; a resolved call adds no notice, a rejected one exactly the notice `API Error: <message>` |
| `Page.React` | static/js/transactions_page.js:34-40 | success exactly when the response and its success key are truthy; a throw exactly when the response is null or undefined; otherwise the failure notice is `response.error` when truthy, else the fallback |
| `Page.After` | static/js/transactions_page.js:32-41 | a rejection ends the handler; otherwise the spinner goes off once, first; a failure shows exactly the notice `response.error`, or the fallback when that is falsy, as an error; a null or undefined response ends in an uncaught throw; a success first shows the fixed success text, or the server's `message` for a delete; reload exactly on success; the modal closes exactly on a successful update; the form resets exactly on a successful add or update |
| `Page.Mutate` | static/js/transactions_page.js:30-40 | a request is always sent; a rejected call shows exactly spinner on, the request, the notice `API Error: <message>` and an uncaught rejection, with the spinner left on and no reset or reload; a resolved call switches the spinner off right after the request, and then shows exactly the failure notice, the uncaught throw, or the success notice, as `Page.After` says; reload exactly when the call resolves to a success; modal and form effects as in `Page.After` |
| `Page.ChooseBranch` | static/js/transactions_page.js:52-71 | items exactly for a non-empty array; the error branch exactly for a truthy value with a truthy `error` that is not a non-empty array; the empty state otherwise |
| `Page.Render` | static/js/transactions_page.js:50-71 | the list is always cleared first, then exactly one branch renders: the items in the page's order, a notice and the failure row, or the empty row |
| `Page.Load` | static/js/transactions_page.js:45-73 | a rejected call shows exactly spinner on, the GET, the notice `API Error: <message>` and an uncaught rejection, so the list is never cleared; a resolved one shows spinner on, the GET, spinner off, and then the rendering when the list exists |
| `Page.Close` | static/js/transactions_page.js:145-149 | closing hides the modal, resets the form and clears the editing id |
| `Page.SubmitEdit` | static/js/transactions_page.js:115 | with no editing id a submit does nothing; otherwise the handler runs, and the modal is closed exactly when it hid it |
| `Page.Progress` | static/js/goals_page.js:73 | 0 when the target is not above 0; NaN when the current amount is not a number; otherwise progress times target is current times 100 |
| `Page.Clamp` | static/js/goals_page.js:83-85 | `Math.min(p, 100)` is at most 100 and at most p, is p or 100, and keeps NaN |
| `Page.ValidGoalProgress` | static/js/goals_page.js:73-85 | for a target above 0 and a current amount of at least 0, the clamped progress lies in [0, 100]; it is the progress itself up to the target and 100 from the target on |
| `TransactionsPage.Payload` | static/js/transactions_page.js:17-23 | the object sent has the five fields, with the parsed amount as a number when the form is valid |
| `TransactionsPage.SubmitAdd` | static/js/transactions_page.js:14-41 | a request is sent exactly when type, category and date are non-empty and the amount is a number above 0; otherwise exactly one error notice; a valid form posts the JSON-encoded object |
| `TransactionsPage.AddOutcome` | static/js/transactions_page.js:30-40 | reset and reload happen exactly when the form is valid and the call resolves to a truthy value with a truthy `id`; a rejected call leaves spinner, form and list as they were; a null response ends in an uncaught throw |
| `TransactionsPage.LoadedRowsSorted` | static/js/transactions_page.js:52-57 | a non-empty list is shown as a permutation of the received rows, latest date first when every date parses |
| `TransactionsPage.OpenEdit` | static/js/transactions_page.js:99-109 | without the modal nothing happens; the editing id becomes the item's id and the modal shows; the date field gets exactly the part of the date before the first `'T'` (the whole date when it has none); a date that is not text throws after the id is set |
| `TransactionsPage.SubmitEdit` | static/js/transactions_page.js:113-142 | no editing id means no effect; otherwise a request is sent exactly when the form is valid, and an invalid form gives one error notice and keeps the modal |
| `TransactionsPage.EditOutcome` | static/js/transactions_page.js:131-142 | a valid edit sends a PUT of the JSON-encoded object to the edited id's URL; modal closed and list reloaded exactly on a truthy `id`; otherwise the modal state is kept |
| `TransactionsPage.Delete` | static/js/transactions_page.js:162-175 | nothing without confirmation; with it, a DELETE to the item's URL with no body |
| `TransactionsPage.DeleteOutcome` | static/js/transactions_page.js:165-174 | reload exactly when the response has a truthy `message`, which is then shown as a success |
| `GoalsPage.Check` | static/js/goals_page.js:24-31 | passes exactly when the name is non-empty, the target is a number above 0 and the deadline is not a parsed date before today; the name and target check comes first |
| `GoalsPage.AddPayload` | static/js/goals_page.js:17-22 | the add form always sends a number as `current_amount`, 0 when the field is blank or not numeric |
| `GoalsPage.EditPayload` | static/js/goals_page.js:119-124 | the edit form sends the parsed current amount with no default, so a blank field is NaN |
| `GoalsPage.SubmitAdd` | static/js/goals_page.js:14-44 | a request is sent exactly when the checks pass; otherwise one notice with the first failing check's message; a passing form posts the JSON-encoded object |
| `GoalsPage.AddOutcome` | static/js/goals_page.js:33-43 | a sent add resets the form and reloads exactly on a truthy `id`, and never touches the modal |
| `GoalsPage.DeadlineRule` | static/js/goals_page.js:28-31 | a valid form is stopped by the deadline exactly when the deadline is present and parses to a time before the start of today; an unparsable deadline never stops it |
| `GoalsPage.LoadGoals` | static/js/goals_page.js:48-67 | a non-empty array of goals is shown in the order received |
| `GoalsPage.OpenEdit` | static/js/goals_page.js:101-110 | the editing id becomes the goal's id; the deadline field gets `''` when there is no deadline, else exactly the part before the first `'T'` (the whole deadline when it has none) |
| `GoalsPage.SubmitEdit` | static/js/goals_page.js:114-146 | no editing id means no effect; otherwise a request is sent exactly when the checks pass, and a failing check gives one notice and keeps the modal |
| `GoalsPage.EditOutcome` | static/js/goals_page.js:135-145 | a sent edit closes the modal and reloads exactly on a truthy `id`; otherwise the modal state is kept |
| `GoalsPage.Delete` | static/js/goals_page.js:168-181 | nothing without confirmation; with it a DELETE with no body goes to the goal's URL, and reload happens exactly on a truthy `message` |
| `GoalsPage.CardProgress` | static/js/goals_page.js:83-85 | the bar width and "% Complete" number never exceed 100 |
| `GoalsPage.StoredGoalCard` | static/js/goals_page.js:73-85 | a goal as the server stores it renders a bar that is a number between 0 and 100 |
| `GoalsPage.BlankCurrentBody` | static/js/goals_page.js:119-124 | an edit with a blank current amount reaches the server as `current_amount: null` next to a numeric target |
| `GoalsPage.BlankCurrentOnEdit` | static/js/goals_page.js:122 | such an edit of an existing goal ends in a server error (500), because `float(None)` raises |
| `GoalsPage.CrashPageOnEdit` | static/js/goals_page.js:134-145 | when an edit is answered by a 500 page that is not JSON, the page shows `API Error:` with the TypeError of the second body read, not the page text; the handler rejects with the spinner on, no reload and the modal unchanged |
| `DashboardPage.SummaryMetrics` | static/js/dashboard_page.js:35-49 | each figure is the currency text of the value or of 0 when it is falsy; a numeric balance is styled negative exactly when it is below 0; a missing balance is not |
| `DashboardPage.RecentList` | static/js/dashboard_page.js:51-74 | a placeholder for a missing or empty list; a throw for a non-array; for an array only the first five items are read: it throws exactly when one of them is null or undefined, and otherwise shows exactly those items, in order |
| `DashboardPage.RecentOfRows` | static/js/dashboard_page.js:56-61 | a list of one to five transactions is shown whole |
| `DashboardPage.GoalBar` | static/js/dashboard_page.js:87-97 | the bar width is the clamped progress, while `aria-valuenow` is the progress itself |
| `DashboardPage.GoalBars` | static/js/dashboard_page.js:86-103 | one bar per goal, in order |
| `DashboardPage.GoalsList` | static/js/dashboard_page.js:76-104 | a placeholder for a missing or empty list; a throw for a non-array; for an array, a throw exactly when some goal is null or undefined, and otherwise one bar per goal |
| `DashboardPage.Entries` | static/js/dashboard_page.js:110-111 | `Object.keys` and `Object.values` of an object are its member names and values in order; of an array, its indices and items |
| `DashboardPage.SpendingChart` | static/js/dashboard_page.js:106-131 | nothing for a falsy value; the placeholder for no keys; otherwise labels and data are the keys and values in order, coloured with the first min(n, 8) palette entries |
| `DashboardPage.RenderAll` | static/js/dashboard_page.js:18-24 | the summary always renders first; the block runs to the end exactly when neither list renderer throws, and then renders the spending chart (when there is one) after the two lists and ends with the income and expense bars |
| `DashboardPage.Settle` | static/js/dashboard_page.js:16-31 | a rejected call gives the load-failure notice and the summary error text; a falsy result renders nothing; a throw in rendering is caught the same way |
| `DashboardPage.LoadWith` | static/js/dashboard_page.js:14-33 | the spinner goes on first and off last, exactly once, and nothing escapes; a failed call shows exactly the request, fetchAPI's notice, the load-failure notice and the summary error text, and never renders a summary; a resolved call shows the request, the rendering or catch block, and the spinner switched off |
| `DashboardPage.LoadDashboardAsWritten` | static/js/dashboard_page.js:14-33 | the handler as written brackets everything with the spinner and lets nothing escape; a failed call shows exactly the request, fetchAPI's notice, the load-failure notice and the summary error text |
| `DashboardPage.LoadDashboard` | static/js/dashboard_page.js:14-33 | the same guarantees, reading the keys the server sends |
| `DashboardPage.WrongKeysHideBalanceAndGoals` | static/js/dashboard_page.js:19-21 | against the server's response the script as written shows a balance of 0, styled non-negative, and the "no goals" placeholder, whatever the data |
| `DashboardPage.RightKeysShowBalanceAndGoals` | static/js/dashboard_page.js:19-21 | with the server's keys the dashboard renders without a throw, shows the real balance styled negative exactly when below 0, the recent transactions in order, and one bar per goal |
| `DashboardPage.SpinnerAlwaysOff` | static/js/dashboard_page.js:25-32 | a failed call still shows the load-failure notice and the summary error, and the spinner goes off last |

## Left out

- The DOM is not modelled: elements, `innerHTML` templates, CSS classes beyond the balance's sign, and event wiring. Each list rendering is one effect carrying the items. Lookups of fixed elements are assumed to succeed. The list, modal and area checks of the transactions and goals pages are modelled. The dashboard's checks for its elements are not: `if (!listElement) return` (static/js/dashboard_page.js:52), `if (!container) return` (static/js/dashboard_page.js:78), and the missing-canvas returns (static/js/dashboard_page.js:108 and :153). The dashboard model always renders.
- Row and card rendering (`createTransactionRow`, `createGoalElement`, the dashboard list items) is left out beyond the goal progress. A throw inside it is not modelled: `createGoalElement` reading the fields of a null goal (static/js/goals_page.js:57 and :73) shows the goal list like any other item.
- DashboardPage.RecentList and DashboardPage.GoalsList: when an item throws partway through the list, the model shows no list, while `forEach` has already appended the items before it.
- Chart.js is left out: chart configuration, and destroying and recreating the chart instances. Only labels, data, colours and the two bar values are modelled.
- Time is left out. `setTimeout` delays are explicit `Fade` and `Remove` events. `new Date()` is the parameter `today`. `confirm()` is the parameter `confirmed`.
- These are oracles of `Js.Host` and are not written out: locale rendering (`toLocaleString`, `toLocaleDateString`), `Date` parsing, `JSON.parse`, number-to-text, and string-to-number. `parseFloat` results are inputs; Python `float()` string syntax is a parameter.
- Floating point is left out. Amounts are exact reals. `toFixed` rounding and IEEE overflow are not modelled. `Records.ToFloat` has no NaN outcome, although Python's `float("nan")` and Flask's JSON decoder can yield one, and `nan <= 0` and `nan < 0` are both false.
- Server.TransactionsStayValid: holds only for amounts that are not NaN. A NaN amount passes the checks at app.py:37 and app.py:76 and is stored.
- Server.GoalsStayValid: holds only for amounts that are not NaN. A NaN target or current amount passes the checks at app.py:127-130 and app.py:167-170 and is stored.
- GoalsPage.StoredGoalCard: holds only for stored goals whose amounts are not NaN, which app.py does not guarantee.
- `jsonify` key ordering is not modelled. Payload members are in construction order. Flask's `jsonify` sorts object keys by default, so in the running application `spending_by_category` reaches the page in alphabetical key order. The chart's label order is then not the descending order that `Summary.SpendingCorrect` proves for the server's dict.
- Object keys: `Object.keys` is not modelled as putting integer-like keys first. Duplicate keys in a decoded object keep the last value.
- Request bodies: a JSON body that is not an object is treated as no body.
- Sorting: when a comparator yields NaN, the result is engine-defined. The model uses a stable insertion that treats a missing key as a tie.
- The store: SQLite column affinity and NOT NULL constraints, the connection plumbing in database.py, and the schema in models.py are not part of this model. The store is an abstract table.
- The second 404 in each update handler (app.py:107-109 and app.py:188-190) is not modelled. The row was found just before, so with no concurrent writer it cannot happen.
- The transaction list: a null element makes the page's date comparator throw, and the model does not capture that.
- Stub fallbacks at static/js/dashboard_page.js:208-222 are left out. They only apply when common.js is not loaded.
- Concurrency is left out: overlapping reloads and races between handlers.
- The pages' GET-by-id endpoints and the HTML page routes are left out. No page script calls them.
- ApiClient.Resolve: for a JSON response it states only that a rejection carries the SyntaxError text, not which decoded value it resolves to. `ApiClient.JsonResponseDecoded` states that separately.
- TransactionsPage.OpenEdit: states nothing about the other form fields, which are copied verbatim.
- GoalsPage.LoadGoals: states only the items branch. The other branches follow from `Page.Load`, which it calls with the identity order.

## Findings

| source | as written | input that shows it | evidently intended | confidence | as-written member | corrected member |
|---|---|---|---|---|---|---|
| static/js/common.js:84-89 | the error path calls `response.json()`, and when that fails it calls `response.text()`. The first call has already read the body, so the second rejects with a TypeError. That TypeError's message is what gets notified and rethrown | a 500 response with content type `text/html` and body `<h1>Internal Server Error</h1>` (`ApiClient.HtmlErrorPageWitness`) | report the response's text when it is not JSON | not executed | `ApiClient.FetchApiAsWritten` | `ApiClient.FetchApi` |
| static/js/dashboard_page.js:19-21 | the dashboard reads `data.net_balance` and `data.goal_summary`, but app.py:219 and app.py:222 send `balance` and `goals_summary` | any dashboard response, e.g. a balance of -50 and one goal (`DashboardPage.WrongKeysHideBalanceAndGoals`) | show the balance with its sign and the goals from the keys the server sends (`DashboardPage.RightKeysShowBalanceAndGoals`) | not executed | `DashboardPage.LoadDashboardAsWritten` | `DashboardPage.LoadDashboard` |

=== FILE: api_client.dfy ===
/** `fetchAPI` of common.js: header merging, body encoding, classification
    of the response, the choice of error message, and the single error
    notice raised before a failure is rethrown. The network is a parameter:
    the transport outcome is what `fetch` settled with. */
module ApiClient {
  import opened Wrappers
  import opened Js
  import Text
  import N = Notifications

  /** The headers every request starts from. */
  const DefaultHeaders: map<string, string> :=
    map["Content-Type" := "application/json", "Accept" := "application/json"]

  /** Caller options; `body` is `Undefined` when the caller gives none. */
  datatype Options = Options(verb: Option<string>, headers: map<string, string>, body: Value)

  /** The body handed to `fetch`: a JSON text of a value, or the value untouched. */
  datatype Body = JsonText(value: Value) | AsIs(value: Value)

  /** What `fetch` receives. */
  datatype Request = Request(url: string, verb: Option<string>, headers: map<string, string>, body: Body)

  /** A received response: status, `content-type` header and body text (None for a null body). */
  datatype HttpResponse = HttpResponse(status: nat, contentType: Option<string>, body: Option<string>)

  /** How `fetch` itself settled. */
  datatype Transport = NetworkFailure(message: string) | Answered(response: HttpResponse)

  /** How `fetchAPI` settles: a parsed result, or the message of the error it rethrows. */
  datatype Settled = Resolved(value: Value) | Rejected(message: string)

  /** One `fetchAPI` call: its settlement and the notices it raised. */
  datatype Call = Call(settled: Settled, notices: seq<(string, N.Severity)>)

  /** `{ ...defaultHeaders, ...options.headers }`: caller keys win. */
  function MergeHeaders(caller: map<string, string>): (h: map<string, string>)
    ensures h.Keys == DefaultHeaders.Keys + caller.Keys
    ensures forall k :: k in caller ==> h[k] == caller[k]
    ensures forall k :: k in DefaultHeaders && k !in caller ==> h[k] == DefaultHeaders[k]
  {
    DefaultHeaders + caller
  }

  /** A GET or HEAD method, in any letter case. */
  predicate IsReadMethod(m: string) {
    Text.SameIgnoringCase(m, "GET") || Text.SameIgnoringCase(m, "HEAD")
  }

  /** The request `fetchAPI` passes to `fetch`: merged headers, and the body
      stringified when it is a non-null object and the method is not GET/HEAD
      (an absent method counts as neither). */
  function Prepare(url: string, o: Options): (r: Request)
    ensures r.url == url && r.verb == o.verb
    ensures r.headers == MergeHeaders(o.headers)
    ensures r.body.JsonText? <==>
      (o.body.Arr? || o.body.Obj?) && !(o.verb.Some? && IsReadMethod(o.verb.value))
    ensures r.body.value == o.body
  {
    var read := match o.verb
      case None => false
      case Some(m) => Text.Upper(m) == "GET" || Text.Upper(m) == "HEAD";
    var stringify := Truthy(o.body) && IsObjectType(o.body) && !read;
    if o.verb.Some? then
      Text.UpperMatchesIgnoringCase(o.verb.value, "GET");
      Text.UpperMatchesIgnoringCase(o.verb.value, "HEAD");
      Request(url, o.verb, MergeHeaders(o.headers), if stringify then JsonText(o.body) else AsIs(o.body))
    else
      Request(url, o.verb, MergeHeaders(o.headers), if stringify then JsonText(o.body) else AsIs(o.body))
  }

  /** The methods the page scripts write with are not read methods, so an
      object or array body goes out as its JSON text. */
  lemma WriteMethodsEncode(url: string, verb: string, headers: map<string, string>, body: Value)
    requires verb == "POST" || verb == "PUT" || verb == "DELETE"
    requires body.Obj? || body.Arr?
    ensures Prepare(url, Options(Some(verb), headers, body)).body == JsonText(body)
  {
    assert Text.UpperChar(verb[0]) == verb[0];
    assert verb[0] != 'G' && verb[0] != 'H';
  }

  /** `response.ok`. */
  predicate Ok(status: nat) {
    200 <= status <= 299
  }

  /** The default error message for a status. */
  function StatusText(status: nat): string {
    "HTTP error! Status: " + Text.NatText(status)
  }

  /** The error envelope as decoded: a value whose properties can be read. */
  function Envelope(r: HttpResponse, host: Host): Option<Value> {
    var decoded := host.parseJson(r.body.GetOr(""));
    if decoded.Some? && !(decoded.value.Null? || decoded.value.Undefined?) then decoded else None
  }

  /** The message of a non-ok response as the code means it: the envelope's
      `message`, else its `error`, else the status text; when the body is not
      a readable JSON value, the raw body text, else the status text. */
  function FailureMessage(r: HttpResponse, host: Host): (m: string)
    ensures Envelope(r, host).Some? && Truthy(Field(Envelope(r, host).value, "message")) ==>
      m == ToText(Field(Envelope(r, host).value, "message"), host)
    ensures (Envelope(r, host).Some? && !Truthy(Field(Envelope(r, host).value, "message"))
             && Truthy(Field(Envelope(r, host).value, "error")))
      ==> m == ToText(Field(Envelope(r, host).value, "error"), host)
    ensures Envelope(r, host).None? && r.body.GetOr("") != "" ==> m == r.body.value
    ensures (Envelope(r, host).None? && r.body.GetOr("") == "")
      || (Envelope(r, host).Some? && !Truthy(Field(Envelope(r, host).value, "message"))
          && !Truthy(Field(Envelope(r, host).value, "error")))
      ==> m == StatusText(r.status)
  {
    match Envelope(r, host)
    case Some(data) =>
      ToText(Or(Or(Field(data, "message"), Field(data, "error")), Str(StatusText(r.status))), host)
    case None =>
      var text := r.body.GetOr("");
      if text != "" then text else StatusText(r.status)
  }

  /** The message as the code computes it: `response.text()` runs after
      `response.json()` has already read the body, so for any non-null body it
      rejects with a TypeError, whose message is what gets reported. */
  function FailureMessageAsWritten(r: HttpResponse, host: Host): (m: string)
    ensures Envelope(r, host).Some? ==> m == FailureMessage(r, host)
    ensures Envelope(r, host).None? && r.body.Some? ==> m == host.bodyUsedText
    ensures r.body.None? ==> m == FailureMessage(r, host)
  {
    match Envelope(r, host)
    case Some(data) =>
      ToText(Or(Or(Field(data, "message"), Field(data, "error")), Str(StatusText(r.status))), host)
    case None =>
      if r.body.Some? then host.bodyUsedText else StatusText(r.status)
  }

  /** The result of an ok response: null for 204, decoded JSON for a JSON
      content type (a SyntaxError rejects), the body text otherwise. */
  function Resolve(r: HttpResponse, host: Host): (s: Settled)
    requires Ok(r.status)
    ensures r.status == 204 ==> s == Resolved(Null)
    ensures r.status != 204 && !(r.contentType.Some? && Text.Includes(r.contentType.value, "application/json"))
      ==> s == Resolved(Str(r.body.GetOr("")))
    ensures s.Rejected? ==> s.message == host.syntaxErrorText
  {
    if r.status == 204 then Resolved(Null)
    else if r.contentType.Some? && Text.Includes(r.contentType.value, "application/json") then
      match host.parseJson(r.body.GetOr(""))
      case Some(v) => Resolved(v)
      case None => Rejected(host.syntaxErrorText)
    else Resolved(Str(r.body.GetOr("")))
  }

  /** The notices the catch block raises: one error notice for a failure, none otherwise. */
  function Report(s: Settled): (c: Call)
    ensures c.settled == s
    ensures s.Rejected? ==> c.notices == [("API Error: " + s.message, N.Error)]
    ensures s.Resolved? ==> c.notices == []
  {
    match s
    case Resolved(_) => Call(s, [])
    case Rejected(m) => Call(s, [("API Error: " + m, N.Error)])
  }

  /** `fetchAPI` with the error message computed as intended. */
  function FetchApi(t: Transport, host: Host): (c: Call)
    ensures c.settled.Rejected? <==> |c.notices| == 1
    ensures c.settled.Rejected? ==> c.notices[0] == ("API Error: " + c.settled.message, N.Error)
    ensures t.NetworkFailure? ==> c.settled == Rejected(t.message)
    ensures t.Answered? && !Ok(t.response.status) ==> c.settled == Rejected(FailureMessage(t.response, host))
    ensures t.Answered? && Ok(t.response.status) ==> c.settled == Resolve(t.response, host)
  {
    match t
    case NetworkFailure(m) => Report(Rejected(m))
    case Answered(r) =>
      if !Ok(r.status) then Report(Rejected(FailureMessage(r, host))) else Report(Resolve(r, host))
  }

  /** `fetchAPI` exactly as written, with the body read twice on the error
      path. The page scripts call this one. */
  function FetchApiAsWritten(t: Transport, host: Host): (c: Call)
    ensures c.settled.Rejected? <==> |c.notices| == 1
    ensures c.settled.Rejected? ==> c.notices[0] == ("API Error: " + c.settled.message, N.Error)
    ensures t.NetworkFailure? ==> c.settled == Rejected(t.message)
    ensures t.Answered? && !Ok(t.response.status) ==> c.settled == Rejected(FailureMessageAsWritten(t.response, host))
    ensures t.Answered? && Ok(t.response.status) ==> c.settled == Resolve(t.response, host)
  {
    match t
    case NetworkFailure(m) => Report(Rejected(m))
    case Answered(r) =>
      if !Ok(r.status) then Report(Rejected(FailureMessageAsWritten(r, host))) else Report(Resolve(r, host))
  }

  /** Every failure is reported once and rethrown; a success is silent. */
  lemma FailureReportedOnce(t: Transport, host: Host)
    ensures FetchApi(t, host).settled.Rejected? ==>
      FetchApi(t, host).notices == [("API Error: " + FetchApi(t, host).settled.message, N.Error)]
    ensures FetchApi(t, host).settled.Resolved? ==> FetchApi(t, host).notices == []
    ensures (t.NetworkFailure? || !Ok(t.response.status)) ==> FetchApi(t, host).settled.Rejected?
  {
  }

  /** A 400 whose body is `{"error": e}` is reported as exactly one notice
      "API Error: e", and the caller sees the same rejection. */
  lemma ErrorEnvelopeReported(body: string, e: string, host: Host)
    requires host.parseJson(body) == Some(Obj([("error", Str(e))]))
    requires e != ""
    ensures FetchApi(Answered(HttpResponse(400, Some("application/json"), Some(body))), host)
      == Call(Rejected(e), [("API Error: " + e, N.Error)])
  {
    var r := HttpResponse(400, Some("application/json"), Some(body));
    assert Envelope(r, host) == Some(Obj([("error", Str(e))]));
    assert Field(Obj([("error", Str(e))]), "message") == Undefined;
    assert Field(Obj([("error", Str(e))]), "error") == Str(e);
  }

  /** A 204 resolves to null whatever its content type says. */
  lemma NoContentIsNull(ct: Option<string>, body: Option<string>, host: Host)
    ensures FetchApi(Answered(HttpResponse(204, ct, body)), host) == Call(Resolved(Null), [])
  {
  }

  /** An ok JSON response resolves to the decoded value. */
  lemma JsonResponseDecoded(status: nat, ct: string, text: string, v: Value, host: Host)
    requires Ok(status) && status != 204
    requires Text.Includes(ct, "application/json")
    requires host.parseJson(text) == Some(v)
    ensures FetchApi(Answered(HttpResponse(status, Some(ct), Some(text))), host) == Call(Resolved(v), [])
  {
  }

  /** The two readings of the error path differ exactly on non-null bodies that
      are not a readable JSON value: there the code reports the TypeError of
      the second body read instead of the body text. */
  lemma BodyReadTwice(r: HttpResponse, host: Host)
    requires !Ok(r.status)
    ensures Envelope(r, host).None? && r.body.Some? ==>
      FetchApiAsWritten(Answered(r), host).settled == Rejected(host.bodyUsedText)
    ensures Envelope(r, host).None? && r.body.Some? && r.body.value != "" ==>
      FetchApi(Answered(r), host).settled == Rejected(r.body.value)
    ensures Envelope(r, host).Some? || r.body.None? ==>
      FetchApiAsWritten(Answered(r), host) == FetchApi(Answered(r), host)
  {
  }

  /** Concrete witness: a 500 whose body is an HTML page. The code reports
      the TypeError of the second body read, not the page text. */
  lemma HtmlErrorPageWitness(host: Host)
    requires host.parseJson("<h1>Internal Server Error</h1>") == None
    requires host.bodyUsedText != "<h1>Internal Server Error</h1>"
    ensures var t := Answered(HttpResponse(500, Some("text/html"), Some("<h1>Internal Server Error</h1>")));
      && FetchApiAsWritten(t, host).settled == Rejected(host.bodyUsedText)
      && FetchApi(t, host).settled == Rejected("<h1>Internal Server Error</h1>")
      && FetchApiAsWritten(t, host).notices != FetchApi(t, host).notices
  {
    var page := "<h1>Internal Server Error</h1>";
    var r := HttpResponse(500, Some("text/html"), Some(page));
    assert Envelope(r, host).None?;
    assert FailureMessageAsWritten(r, host) == host.bodyUsedText;
    assert FailureMessage(r, host) == page;
    var a, b := "API Error: " + host.bodyUsedText, "API Error: " + page;
    assert a[11..] == host.bodyUsedText && b[11..] == page;
  }

  /** JSON.parse(JSON.stringify(v)): what the server receives for a stringified
      body. NaN becomes null, undefined properties are dropped and undefined
      array elements become null. */
  /** A value JSON text can carry: no undefined and no NaN anywhere in it. */
  predicate JsonSafe(v: Value) {
    match v
    case Undefined => false
    case NaN => false
    case Arr(items) => forall i :: 0 <= i < |items| ==> JsonSafe(items[i])
    case Obj(fs) => forall i :: 0 <= i < |fs| ==> JsonSafe(fs[i].1)
    case _ => true
  }

  function Wire(v: Value): (w: Value)
    ensures !w.Undefined? && !w.NaN?
    ensures JsonSafe(w)
    decreases v, 1
  {
    match v
    case Undefined => Null
    case NaN => Null
    case Arr(items) => Arr(WireItems(v, items))
    case Obj(fs) => Obj(WireFields(v, fs))
    case _ => v
  }

  function WireItems(whole: Value, items: seq<Value>): (r: seq<Value>)
    requires forall i :: 0 <= i < |items| ==> items[i] < whole
    ensures |r| == |items|
    ensures forall i :: 0 <= i < |r| ==> JsonSafe(r[i]) && r[i] == Wire(items[i])
    decreases whole, 0, |items|
  {
    if |items| == 0 then [] else WireItems(whole, items[..|items| - 1]) + [Wire(items[|items| - 1])]
  }

  function WireFields(whole: Value, fs: seq<(string, Value)>): (r: seq<(string, Value)>)
    requires forall i :: 0 <= i < |fs| ==> fs[i].1 < whole
    ensures forall i :: 0 <= i < |r| ==> !r[i].1.Undefined? && JsonSafe(r[i].1)
    ensures (forall i :: 0 <= i < |fs| ==> !fs[i].1.Undefined?) ==>
      |r| == |fs| && forall i :: 0 <= i < |fs| ==> r[i] == (fs[i].0, Wire(fs[i].1))
    decreases whole, 0, |fs|
  {
    if |fs| == 0 then []
    else
      var init := WireFields(whole, fs[..|fs| - 1]);
      var (k, x) := fs[|fs| - 1];
      if x.Undefined? then init else init + [(k, Wire(x))]
  }
}

=== FILE: dashboard_page.dfy ===
/** dashboard_page.js: `loadDashboardData` and the renderers it calls. The
    script reads the balance and the goals under the keys `net_balance` and
    `goal_summary`; the server sends `balance` and `goals_summary`. Both
    readings are modelled: `LoadDashboardAsWritten` with the script's keys,
    `LoadDashboard` with the server's. */
module DashboardPage {
  import opened Wrappers
  import opened Js
  import Text
  import N = Notifications
  import ApiClient
  import Format
  import opened Page
  import Records
  import Summary

  const Url: string := "/api/dashboard_data"
  const LoadFailed: string := "Could not load dashboard data. Please try again later."
  /** How many recent transactions the list shows at most. */
  const RecentShown: nat := 5
  /** The spending chart's colours, in the order slices take them. */
  const Palette: seq<string> :=
    ["#007bff", "#dc3545", "#ffc107", "#28a745", "#17a2b8", "#6c757d", "#f8f9fa", "#343a40"]

  function Min(a: nat, b: nat): nat {
    if a <= b then a else b
  }

  /** `updateSummaryMetrics(income, expenses, balance)`: each figure is
      `formatCurrency(x || 0)`, and the balance is styled negative exactly
      when `balance < 0`. */
  function SummaryMetrics(income: Value, expenses: Value, balance: Value, host: Host): (e: Effect)
    ensures e.Summary?
    ensures e.income == Format.FormatCurrency(Or(income, Num(0.0)), host)
    ensures e.expenses == Format.FormatCurrency(Or(expenses, Num(0.0)), host)
    ensures !Truthy(balance) ==> e.balance == host.currencyText(Some(0.0))
    ensures Truthy(balance) ==> e.balance == Format.FormatCurrency(balance, host)
    ensures balance.Num? ==> (e.negative <==> balance.n < 0.0)
    ensures balance.Undefined? || balance.Null? ==> !e.negative
  {
    Summary(Format.FormatCurrency(Or(income, Num(0.0)), host), Format.FormatCurrency(Or(expenses, Num(0.0)), host),
            Format.FormatCurrency(Or(balance, Num(0.0)), host), LessThan(balance, 0.0, host))
  }

  /** `!list || list.length === 0`. */
  predicate NoneToShow(v: Value) {
    !Truthy(v) || Field(v, "length") == Num(0.0)
  }

  /** Some element is null or undefined, so reading a property of it throws. */
  predicate HasHole(items: seq<Value>) {
    exists i :: 0 <= i < |items| && (items[i].Null? || items[i].Undefined?)
  }

  /** `renderRecentTransactions(transactions)`: a placeholder when there is
      nothing, the first five items in order for an array, and a throw for
      anything else (it has no `slice` and `forEach`). */
  function RecentList(v: Value): (r: Completion<Effect>)
    ensures NoneToShow(v) ==> r == Normal(RecentPlaceholder)
    ensures !NoneToShow(v) && !v.Arr? ==> r.Threw?
    ensures r.Normal? && r.value.Recent? ==>
      && v.Arr?
      && |r.value.items| == Min(RecentShown, |v.items|) && r.value.items <= v.items
    ensures !NoneToShow(v) && v.Arr? ==>
      var shown := v.items[..Min(RecentShown, |v.items|)];
      && (r.Threw? <==> HasHole(shown))
      && (!HasHole(shown) ==> r == Normal(Recent(shown)))
  {
    if NoneToShow(v) then Normal(RecentPlaceholder)
    else if !v.Arr? then Threw
    else
      var shown := v.items[..Min(RecentShown, |v.items|)];
      if HasHole(shown) then Threw else Normal(Recent(shown))
  }

  /** A dashboard goal bar: width `min(progress, 100)`, `aria-valuenow`
      the progress itself. */
  function GoalBar(goal: Value, host: Host): (b: Bar)
    ensures b.width == Clamp(b.valueNow)
    ensures b.valueNow == Progress(Field(goal, "current_amount"), Field(goal, "target_amount"), host)
  {
    var p := Progress(Field(goal, "current_amount"), Field(goal, "target_amount"), host);
    Bar(Clamp(p), p)
  }

  function GoalBars(goals: seq<Value>, host: Host): (bars: seq<Bar>)
    ensures |bars| == |goals|
    ensures forall i :: 0 <= i < |goals| ==> bars[i] == GoalBar(goals[i], host)
  {
    if |goals| == 0 then [] else GoalBars(goals[..|goals| - 1], host) + [GoalBar(goals[|goals| - 1], host)]
  }

  /** `renderSavingsGoalsSummary(goals)`: a placeholder when there is
      nothing, one bar per goal for an array, a throw otherwise. */
  function GoalsList(v: Value, host: Host): (r: Completion<Effect>)
    ensures NoneToShow(v) ==> r == Normal(GoalsPlaceholder)
    ensures !NoneToShow(v) && !v.Arr? ==> r.Threw?
    ensures !NoneToShow(v) && v.Arr? ==> (r.Threw? <==> HasHole(v.items))
    ensures !NoneToShow(v) && v.Arr? && !HasHole(v.items) ==> r == Normal(Goals(GoalBars(v.items, host)))
  {
    if NoneToShow(v) then Normal(GoalsPlaceholder)
    else if !v.Arr? then Threw
    else if HasHole(v.items) then Threw
    else Normal(Goals(GoalBars(v.items, host)))
  }

  function IndexLabels(n: nat): (r: seq<string>)
    ensures |r| == n
    ensures forall i :: 0 <= i < n ==> r[i] == Text.NatText(i)
  {
    if n == 0 then [] else IndexLabels(n - 1) + [Text.NatText(n - 1)]
  }

  /** `Object.keys(v)` and `Object.values(v)` for the values JSON can hold. */
  function Entries(v: Value): (r: (seq<string>, seq<Value>))
    ensures |r.0| == |r.1|
    ensures v.Obj? ==> |r.0| == |v.fields| && forall i :: 0 <= i < |v.fields| ==> r.0[i] == v.fields[i].0 && r.1[i] == v.fields[i].1
    ensures v.Arr? ==> r == (IndexLabels(|v.items|), v.items)
  {
    match v
    case Obj(fs) => (seq(|fs|, i requires 0 <= i < |fs| => fs[i].0), seq(|fs|, i requires 0 <= i < |fs| => fs[i].1))
    case Arr(items) => (IndexLabels(|items|), items)
    case Str(s) => (IndexLabels(|s|), seq(|s|, i requires 0 <= i < |s| => Str([s[i]])))
    case _ => ([], [])
  }

  /** `renderSpendingBreakdownChart(data)`: nothing for a falsy value, a
      placeholder for an object without keys, otherwise a chart whose slices
      are the keys and values in order, coloured from the start of the
      palette. */
  function SpendingChart(v: Value): (r: Option<Effect>)
    ensures !Truthy(v) ==> r.None?
    ensures Truthy(v) && |Entries(v).0| == 0 ==> r == Some(ChartPlaceholder)
    ensures Truthy(v) && |Entries(v).0| > 0 ==>
      && r.Some? && r.value.Chart?
      && r.value.labels == Entries(v).0 && r.value.data == Entries(v).1
      && |r.value.colors| == Min(|r.value.labels|, |Palette|)
      && r.value.colors <= Palette
  {
    if !Truthy(v) then None
    else
      var (labels, data) := Entries(v);
      if |labels| == 0 then Some(ChartPlaceholder)
      else Some(Chart(labels, data, Palette[..Min(|labels|, |Palette|)]))
  }

  /** What the body of the `if (data)` block rendered, and whether it threw. */
  datatype Rendered = Rendered(effects: seq<Effect>, threw: bool)

  /** The five render calls in order; a throw ends the block. */
  function RenderAll(data: Value, balanceKey: string, goalsKey: string, host: Host): (r: Rendered)
    ensures |r.effects| >= 1
    ensures r.effects[0] ==
      SummaryMetrics(Field(data, "total_income"), Field(data, "total_expenses"), Field(data, balanceKey), host)
    ensures !r.threw <==> RecentList(Field(data, "recent_transactions")).Normal? && GoalsList(Field(data, goalsKey), host).Normal?
    ensures !r.threw ==>
      && |r.effects| >= 4
      && r.effects[1] == RecentList(Field(data, "recent_transactions")).value
      && r.effects[2] == GoalsList(Field(data, goalsKey), host).value
      && r.effects[|r.effects| - 1] == Bars(Or(Field(data, "total_income"), Num(0.0)), Or(Field(data, "total_expenses"), Num(0.0)))
    ensures !r.threw && SpendingChart(Field(data, "spending_by_category")).None? ==> |r.effects| == 4
    ensures !r.threw && SpendingChart(Field(data, "spending_by_category")).Some? ==>
      |r.effects| == 5 && r.effects[3] == SpendingChart(Field(data, "spending_by_category")).value
    ensures Uncaught !in r.effects && SummaryError !in r.effects && Spinner(false) !in r.effects
  {
    var s := SummaryMetrics(Field(data, "total_income"), Field(data, "total_expenses"), Field(data, balanceKey), host);
    match RecentList(Field(data, "recent_transactions"))
    case Threw => Rendered([s], true)
    case Normal(recent) =>
      match GoalsList(Field(data, goalsKey), host)
      case Threw => Rendered([s, recent], true)
      case Normal(goals) =>
        var chart := match SpendingChart(Field(data, "spending_by_category")) case Some(c) => [c] case None => [];
        var bars := Bars(Or(Field(data, "total_income"), Num(0.0)), Or(Field(data, "total_expenses"), Num(0.0)));
        Rendered([s, recent, goals] + chart + [bars], false)
  }

  /** The catch block: one notice and the summary's error text. */
  const Caught: seq<Effect> := [Notify(Str(LoadFailed), N.Error), SummaryError]

  /** What `loadDashboardData` does between the await and the final
      spinner call: the renderings when the data is truthy, the catch block
      after a throw or a failed call. */
  function Settle(settled: ApiClient.Settled, balanceKey: string, goalsKey: string, host: Host): (es: seq<Effect>)
    ensures Spinner(false) !in es && Uncaught !in es
    ensures settled.Rejected? ==> es == Caught
    ensures settled.Resolved? && !Truthy(settled.value) ==> es == []
    ensures settled.Resolved? && Truthy(settled.value) ==>
      var r := RenderAll(settled.value, balanceKey, goalsKey, host);
      es == r.effects + (if r.threw then Caught else [])
  {
    match settled
    case Rejected(_) => Caught
    case Resolved(data) =>
      if !Truthy(data) then []
      else
        var r := RenderAll(data, balanceKey, goalsKey, host);
        r.effects + (if r.threw then Caught else [])
  }

  /** `loadDashboardData` reading the balance and goals under the given keys:
      the spinner is switched on first and off last, and nothing escapes. */
  function LoadWith(t: ApiClient.Transport, host: Host, balanceKey: string, goalsKey: string): (es: seq<Effect>)
    ensures |es| >= 3 && es[0] == Spinner(true) && es[|es| - 1] == Spinner(false)
    ensures Spinner(false) !in es[..|es| - 1] && Uncaught !in es
    ensures var tail := Settle(ApiClient.FetchApiAsWritten(t, host).settled, balanceKey, goalsKey, host);
      |tail| < |es| && es[|es| - 1 - |tail|..|es| - 1] == tail
    ensures ApiClient.FetchApiAsWritten(t, host).settled.Rejected? ==> forall i :: 0 <= i < |es| ==> !es[i].Summary?
    ensures ApiClient.FetchApiAsWritten(t, host).settled.Rejected? ==>
      es == FailedLoad(ApiClient.FetchApiAsWritten(t, host).settled.message)
    ensures ApiClient.FetchApiAsWritten(t, host).settled.Resolved? ==>
      es == [Spinner(true), Fetch(ApiClient.Prepare(Url, ApiClient.Options(None, map[], Undefined)))]
        + Settle(ApiClient.FetchApiAsWritten(t, host).settled, balanceKey, goalsKey, host) + [Spinner(false)]
  {
    var (pre, settled) := Await(Url, ApiClient.Options(None, map[], Undefined), t, host);
    var tail := Settle(settled, balanceKey, goalsKey, host);
    assert pre[0] == pre[..2][0] && pre[1] == pre[..2][1];
    Bracketed(pre, tail);
    if settled.Rejected? then
      FailedShape(pre, settled.message);
      pre + tail + [Spinner(false)]
    else
      assert pre == pre[..2];
      pre + tail + [Spinner(false)]
  }

  /** Everything a failed call shows: fetchAPI's notice of the rejection,
      the catch block's notice and error text, the spinner switched off. */
  function FailedLoad(message: string): seq<Effect> {
    [Spinner(true), Fetch(ApiClient.Prepare(Url, ApiClient.Options(None, map[], Undefined))),
     Notify(Str("API Error: " + message), N.Error)] + Caught + [Spinner(false)]
  }

  lemma FailedShape(pre: seq<Effect>, message: string)
    requires |pre| >= 2 && pre[..2] == [Spinner(true), Fetch(ApiClient.Prepare(Url, ApiClient.Options(None, map[], Undefined)))]
    requires pre == pre[..2] + [Notify(Str("API Error: " + message), N.Error)]
    ensures pre + Caught + [Spinner(false)] == FailedLoad(message)
  {
  }

  /** The spinner calls around a fetch and whatever follows it. */
  lemma Bracketed(pre: seq<Effect>, tail: seq<Effect>)
    requires |pre| >= 2 && pre[0] == Spinner(true) && pre[1].Fetch?
    requires forall i :: 2 <= i < |pre| ==> pre[i].Notify?
    requires Spinner(false) !in tail && Uncaught !in tail
    ensures var es := pre + tail + [Spinner(false)];
      && |es| >= 3 && es[0] == Spinner(true) && es[|es| - 1] == Spinner(false)
      && Spinner(false) !in es[..|es| - 1] && Uncaught !in es
      && |tail| < |es| && es[|es| - 1 - |tail|..|es| - 1] == tail
    ensures tail == Caught ==>
      var es := pre + tail + [Spinner(false)];
      forall i :: 0 <= i < |es| ==> !es[i].Summary?
  {
    var es := pre + tail + [Spinner(false)];
    assert Spinner(false) !in pre && Uncaught !in pre;
    assert es[..|es| - 1] == pre + tail;
    assert es[|es| - 1 - |tail|..|es| - 1] == tail;
    if tail == Caught {
      forall i | 0 <= i < |es| ensures !es[i].Summary? {
        if i < |pre| {
          assert es[i] == pre[i];
        } else if i < |pre| + |tail| {
          assert es[i] == tail[i - |pre|];
        }
      }
    }
  }

  /** The script as written. */
  function LoadDashboardAsWritten(t: ApiClient.Transport, host: Host): (es: seq<Effect>)
    ensures |es| >= 3 && es[0] == Spinner(true) && es[|es| - 1] == Spinner(false) && Uncaught !in es
    ensures ApiClient.FetchApiAsWritten(t, host).settled.Rejected? ==>
      es == FailedLoad(ApiClient.FetchApiAsWritten(t, host).settled.message)
  {
    LoadWith(t, host, "net_balance", "goal_summary")
  }

  /** The script reading the keys the server sends. */
  function LoadDashboard(t: ApiClient.Transport, host: Host): (es: seq<Effect>)
    ensures |es| >= 3 && es[0] == Spinner(true) && es[|es| - 1] == Spinner(false) && Uncaught !in es
    ensures ApiClient.FetchApiAsWritten(t, host).settled.Rejected? ==>
      es == FailedLoad(ApiClient.FetchApiAsWritten(t, host).settled.message)
  {
    LoadWith(t, host, "balance", "goals_summary")
  }

  /** Against the server's payload, the script as written always shows a
      balance of 0 styled as non-negative and the "no goals" placeholder,
      whatever the balance and the goals are. */
  lemma WrongKeysHideBalanceAndGoals(d: Summary.Dashboard, keyText: Value -> string, host: Host)
    ensures var p := Summary.Payload(d, keyText);
      var e := RenderAll(p, "net_balance", "goal_summary", host).effects[0];
      e.balance == host.currencyText(Some(0.0)) && !e.negative
    ensures var p := Summary.Payload(d, keyText);
      var r := RenderAll(p, "net_balance", "goal_summary", host);
      !r.threw ==> r.effects[2] == GoalsPlaceholder
  {
    var p := Summary.Payload(d, keyText);
    assert Field(p, "net_balance") == Undefined;
    assert Field(p, "goal_summary") == Undefined;
    assert GoalsList(Undefined, host) == Normal(GoalsPlaceholder);
  }

  /** Against the server's payload, the corrected keys show the balance,
      styled negative exactly when it is below 0, the recent transactions in
      order, and one bar per goal (the placeholder when there are none). */
  lemma RightKeysShowBalanceAndGoals(d: Summary.Dashboard, keyText: Value -> string, host: Host)
    requires |d.recent| <= RecentShown
    ensures var r := RenderAll(Summary.Payload(d, keyText), "balance", "goals_summary", host);
      && !r.threw
      && r.effects[0].negative == (d.balance < 0.0)
      && (d.balance != 0.0 ==> r.effects[0].balance == host.currencyText(Some(d.balance)))
      && (|d.recent| > 0 ==> r.effects[1] == Recent(Summary.RowsJson(d.recent)))
      && (|d.goals| == 0 ==> r.effects[2] == GoalsPlaceholder)
      && (|d.goals| > 0 ==> r.effects[2] == Goals(GoalBars(Summary.GoalsJson(d.goals), host)))
  {
    var p := Summary.Payload(d, keyText);
    RowsHaveNoHole(d.recent);
    GoalsHaveNoHole(d.goals);
    RenderWellFormed(p, Summary.RowsJson(d.recent), Summary.GoalsJson(d.goals), d.balance, host);
  }

  /** Data with a numeric balance and hole-free lists renders without a throw. */
  lemma RenderWellFormed(data: Value, rows: seq<Value>, goals: seq<Value>, balance: real, host: Host)
    requires Field(data, "balance") == Num(balance)
    requires Field(data, "recent_transactions") == Arr(rows) && |rows| <= RecentShown && !HasHole(rows)
    requires Field(data, "goals_summary") == Arr(goals) && !HasHole(goals)
    ensures var r := RenderAll(data, "balance", "goals_summary", host);
      && !r.threw
      && r.effects[0].negative == (balance < 0.0)
      && (balance != 0.0 ==> r.effects[0].balance == host.currencyText(Some(balance)))
      && (|rows| > 0 ==> r.effects[1] == Recent(rows))
      && (|goals| == 0 ==> r.effects[2] == GoalsPlaceholder)
      && (|goals| > 0 ==> r.effects[2] == Goals(GoalBars(goals, host)))
  {
    if |rows| > 0 {
      RecentOfRows(rows);
    }
    assert Field(Arr(rows), "length") == Num(|rows| as real);
    assert Field(Arr(goals), "length") == Num(|goals| as real);
  }

  lemma RowsHaveNoHole(recent: seq<Summary.Row>)
    ensures !HasHole(Summary.RowsJson(recent))
  {
    var rows := Summary.RowsJson(recent);
    forall i | 0 <= i < |rows| ensures rows[i].Obj? {
      assert rows[i] == Records.TransactionJson(recent[i].0, recent[i].1);
    }
  }

  lemma GoalsHaveNoHole(gs: seq<(int, Records.Goal)>)
    ensures !HasHole(Summary.GoalsJson(gs))
  {
    var goals := Summary.GoalsJson(gs);
    forall i | 0 <= i < |goals| ensures goals[i].Obj? {
      assert goals[i] == Records.GoalJson(gs[i].0, gs[i].1);
    }
  }

  /** An array of at most five objects is listed whole. */
  lemma RecentOfRows(rows: seq<Value>)
    requires 0 < |rows| <= RecentShown && !HasHole(rows)
    ensures RecentList(Arr(rows)) == Normal(Recent(rows))
  {
    assert Field(Arr(rows), "length") == Num(|rows| as real);
    assert !NoneToShow(Arr(rows));
    assert rows[..Min(RecentShown, |rows|)] == rows;
  }

  /** Whatever happens, the spinner goes off last, and a failed call shows
      the load-failure notice and the summary's error text. */
  lemma SpinnerAlwaysOff(t: ApiClient.Transport, host: Host)
    ensures var es := LoadDashboard(t, host);
      es[|es| - 1] == Spinner(false) && Uncaught !in es
    ensures ApiClient.FetchApiAsWritten(t, host).settled.Rejected? ==>
      var es := LoadDashboard(t, host);
      Notify(Str(LoadFailed), N.Error) in es && SummaryError in es
  {
    var es := LoadDashboard(t, host);
    if ApiClient.FetchApiAsWritten(t, host).settled.Rejected? {
      assert es[|es| - 3] == Notify(Str(LoadFailed), N.Error);
      assert es[|es| - 2] == SummaryError;
    }
  }
}

=== FILE: format.dfy ===
/** `formatCurrency` and `formatDate` of common.js. The locale renderings are
    oracles of the host; what is modelled is when they are used and what is
    returned instead. */
module Format {
  import opened Wrappers
  import opened Js

  /** `typeof v === 'number'` (NaN included). */
  predicate IsNumber(v: Value) {
    v.Num? || v.NaN?
  }

  /** `formatCurrency(v)`: the locale currency text of a number, `String(v)` for anything else. */
  function FormatCurrency(v: Value, host: Host): (r: string)
    ensures v.Num? ==> r == host.currencyText(Some(v.n))
    ensures v.NaN? ==> r == host.currencyText(None)
    ensures !IsNumber(v) ==> r == ToText(v, host)
  {
    match v
    case Num(n) => host.currencyText(Some(n))
    case NaN => host.currencyText(None)
    case _ => ToText(v, host)
  }

  /** Text that is not a number comes back unchanged. */
  lemma CurrencyKeepsText(s: string, host: Host)
    ensures FormatCurrency(Str(s), host) == s
  {
  }

  /** `formatDate(v)`: 'N/A' for a falsy input, the input itself when it does
      not parse to a valid date, the short UTC date text otherwise. */
  function FormatDate(v: Value, host: Host): (r: Value)
    ensures !Truthy(v) ==> r == Str("N/A")
    ensures Truthy(v) && host.parseDate(v).None? ==> r == v
    ensures Truthy(v) && host.parseDate(v).Some? ==> r == Str(host.dateText(host.parseDate(v).value))
  {
    if !Truthy(v) then Str("N/A")
    else match host.parseDate(v)
      case None => v
      case Some(ms) => Str(host.dateText(ms))
  }

  /** A string in gives a string out; an empty one becomes 'N/A' and an
      unparsable one is returned unchanged. */
  lemma DateOfTextIsText(s: string, host: Host)
    ensures FormatDate(Str(s), host).Str?
    ensures s == "" ==> FormatDate(Str(s), host) == Str("N/A")
    ensures s != "" && host.parseDate(Str(s)).None? ==> FormatDate(Str(s), host) == Str(s)
  {
  }
}

=== FILE: goals_page.dfy ===
/** goals_page.js: the add and edit forms with their deadline rule, the
    `current_amount` default, the goal list and its progress bars, the edit
    modal, and deletion. */
module GoalsPage {
  import opened Wrappers
  import opened Js
  import Text
  import N = Notifications
  import ApiClient
  import opened Page
  import Records
  import Server

  const ListUrl: string := "/api/goals"
  const InvalidAdd: string := "Goal name and valid target amount are required."
  const InvalidEdit: string := "Goal name and valid target amount are required for update."
  const PastDeadline: string := "Deadline cannot be in the past."
  const AddedText: string := "Goal added successfully!"
  const AddFailed: string := "Failed to add goal. Please try again."
  const UpdatedText: string := "Goal updated successfully!"
  const UpdateFailed: string := "Failed to update goal. Please try again."
  const DeleteFailed: string := "Failed to delete goal. Please try again."

  /** The form's values as `formData.get` returns them, with both amounts
      already through `parseFloat` (None is NaN). */
  datatype Form = Form(name: Value, target: Option<real>, current: Option<real>, deadline: Value)

  /** A name and a target amount that is a number above 0. */
  predicate AmountsValid(f: Form) {
    Truthy(f.name) && f.target.Some? && f.target.value > 0.0
  }

  /** `deadline && new Date(deadline) < new Date().setHours(0,0,0,0)`:
      `today` is the time value of the start of today. A deadline that does
      not parse gives NaN, and NaN is never less than anything. */
  predicate DeadlinePast(f: Form, today: int, host: Host) {
    Truthy(f.deadline) && host.parseDate(f.deadline).Some? && host.parseDate(f.deadline).value < today
  }

  /** The checks a form passes before anything is sent: the message of the
      first that fails, if any. */
  function Check(f: Form, today: int, host: Host, invalid: string): (r: Option<string>)
    ensures r.None? <==> AmountsValid(f) && !DeadlinePast(f, today, host)
    ensures !AmountsValid(f) ==> r == Some(invalid)
    ensures AmountsValid(f) && DeadlinePast(f, today, host) ==> r == Some(PastDeadline)
  {
    if !AmountsValid(f) then Some(invalid)
    else if DeadlinePast(f, today, host) then Some(PastDeadline)
    else None
  }

  /** The add form's object: `parseFloat(current) || 0` turns NaN into 0. */
  function AddPayload(f: Form): (v: Value)
    ensures v.Obj? && |v.fields| == 4
    ensures v.fields[2].0 == "current_amount" && v.fields[2].1.Num?
    ensures v.fields[2].1 == Num(f.current.GetOr(0.0))
  {
    var current := Or(NumberOrNaN(f.current), Num(0.0));
    Obj([("name", f.name), ("target_amount", NumberOrNaN(f.target)), ("current_amount", current), ("deadline", f.deadline)])
  }

  /** The edit form's object: no default, so a blank current amount is NaN. */
  function EditPayload(f: Form): (v: Value)
    ensures v.Obj? && |v.fields| == 4
    ensures v.fields[2] == ("current_amount", NumberOrNaN(f.current))
  {
    Obj([("name", f.name), ("target_amount", NumberOrNaN(f.target)), ("current_amount", NumberOrNaN(f.current)),
         ("deadline", f.deadline)])
  }

  function ItemUrl(id: Value, host: Host): string {
    ListUrl + "/" + ToText(id, host)
  }

  /** The add form's submit handler. */
  function SubmitAdd(f: Form, today: int, t: ApiClient.Transport, host: Host): (es: seq<Effect>)
    ensures Sends(es) <==> Check(f, today, host, InvalidAdd).None?
    ensures Check(f, today, host, InvalidAdd).Some? ==> es == [Notify(Str(Check(f, today, host, InvalidAdd).value), N.Error)]
    ensures Check(f, today, host, InvalidAdd).None? ==> (|es| >= 2 &&
      es[1] == Fetch(ApiClient.Request(ListUrl, Some("POST"), ApiClient.MergeHeaders(map[]), ApiClient.JsonText(AddPayload(f)))))
  {
    match Check(f, today, host, InvalidAdd)
    case Some(m) =>
      var es := [Notify(Str(m), N.Error)];
      assert !es[0].Fetch?;
      es
    case None =>
      ApiClient.WriteMethodsEncode(ListUrl, "POST", map[], AddPayload(f));
      Mutate(ListUrl, ApiClient.Options(Some("POST"), map[], AddPayload(f)), t, host, Added(AddedText), AddFailed)
  }

  /** A sent add resets the form and reloads exactly when the call resolves
      to a value with a truthy `id`. */
  lemma AddOutcome(f: Form, today: int, t: ApiClient.Transport, host: Host)
    requires Check(f, today, host, InvalidAdd).None?
    ensures var c := ApiClient.FetchApiAsWritten(t, host).settled;
      var ok := c.Resolved? && Truthy(c.value) && Truthy(Field(c.value, "id"));
      && (Reload in SubmitAdd(f, today, t, host) <==> ok)
      && (ResetForm in SubmitAdd(f, today, t, host) <==> ok)
      && HideModal !in SubmitAdd(f, today, t, host)
  {
  }

  /** A deadline that is not earlier than today, or that does not parse, lets
      an otherwise valid form through; a parsed one before today stops it. */
  lemma DeadlineRule(f: Form, today: int, host: Host)
    requires AmountsValid(f)
    ensures Check(f, today, host, InvalidAdd) == Some(PastDeadline) <==>
      Truthy(f.deadline) && host.parseDate(f.deadline).Some? && host.parseDate(f.deadline).value < today
    ensures host.parseDate(f.deadline).None? ==> Check(f, today, host, InvalidAdd).None?
  {
  }

  /** `loadGoals`: goals are shown in the order received. */
  function LoadGoals(t: ApiClient.Transport, host: Host, present: bool): (es: seq<Effect>)
    ensures var c := ApiClient.FetchApiAsWritten(t, host).settled;
      present && c.Resolved? && c.value.Arr? && |c.value.items| > 0 ==>
        |es| >= 2 && es[|es| - 1] == ShowItems(c.value.items)
  {
    Load(ListUrl, t, host, present, (items: seq<Value>) => items)
  }

  /** What opening the edit modal produced: effects, the modal, and the text
      put in the deadline field. */
  datatype Opened = Opened(effects: seq<Effect>, modal: Modal, deadlineField: Option<string>)

  /** `openEditModal(goal)`: the deadline field gets the part before 'T', or
      '' when there is no deadline. */
  function OpenEdit(m: Modal, present: bool, goal: Value): (o: Opened)
    ensures !present ==> o == Opened([], m, None)
    ensures present && goal.Obj? && !Truthy(Field(goal, "deadline")) ==>
      o == Opened([ShowModal], Modal(Field(goal, "id"), true), Some(""))
    ensures present && goal.Obj? && Field(goal, "deadline").Str? && Truthy(Field(goal, "deadline")) ==>
      && o.modal == Modal(Field(goal, "id"), true)
      && o.deadlineField.Some?
      && o.deadlineField.value <= Field(goal, "deadline").s
      && 'T' !in o.deadlineField.value
      && (|o.deadlineField.value| < |Field(goal, "deadline").s| ==> Field(goal, "deadline").s[|o.deadlineField.value|] == 'T')
      && ('T' !in Field(goal, "deadline").s ==> o.deadlineField.value == Field(goal, "deadline").s)
  {
    if !present then Opened([], m, None)
    else match Get(goal, "id")
      case Threw => Opened([Uncaught], m, None)
      case Normal(id) =>
        var deadline := Field(goal, "deadline");
        if !Truthy(deadline) then Opened([ShowModal], Modal(id, true), Some(""))
        else if deadline.Str? then Opened([ShowModal], Modal(id, true), Some(Text.BeforeFirst(deadline.s, 'T')))
        else Opened([Uncaught], Modal(id, m.shown), None)
  }

  /** The edit form's submit handler. */
  function SubmitEdit(m: Modal, f: Form, today: int, t: ApiClient.Transport, host: Host): (r: (seq<Effect>, Modal))
    ensures !Editing(m) ==> r == ([], m)
    ensures Editing(m) ==> (Sends(r.0) <==> Check(f, today, host, InvalidEdit).None?)
    ensures Editing(m) && Check(f, today, host, InvalidEdit).Some? ==>
      r == ([Notify(Str(Check(f, today, host, InvalidEdit).value), N.Error)], m)
  {
    var proceed := match Check(f, today, host, InvalidEdit)
      case Some(msg) => [Notify(Str(msg), N.Error)]
      case None =>
        Mutate(ItemUrl(m.editingId, host), ApiClient.Options(Some("PUT"), map[], EditPayload(f)), t, host,
               Updated(UpdatedText), UpdateFailed);
    assert Check(f, today, host, InvalidEdit).Some? ==> !proceed[0].Fetch?;
    Page.SubmitEdit(m, proceed)
  }

  /** A sent edit closes the modal and reloads exactly when the call resolves
      to a value with a truthy `id`; otherwise the modal keeps its state. */
  lemma EditOutcome(m: Modal, f: Form, today: int, t: ApiClient.Transport, host: Host)
    requires Editing(m) && Check(f, today, host, InvalidEdit).None?
    ensures var c := ApiClient.FetchApiAsWritten(t, host).settled;
      var ok := c.Resolved? && Truthy(c.value) && Truthy(Field(c.value, "id"));
      && (Reload in SubmitEdit(m, f, today, t, host).0 <==> ok)
      && (ok ==> SubmitEdit(m, f, today, t, host).1 == Closed)
      && (!ok ==> SubmitEdit(m, f, today, t, host).1 == m)
  {
  }

  /** `deleteGoal(id)`: `confirmed` is the answer to the confirm dialog. */
  function Delete(id: Value, confirmed: bool, t: ApiClient.Transport, host: Host): (es: seq<Effect>)
    ensures !confirmed ==> es == []
    ensures confirmed ==> (Sends(es) && |es| >= 2 &&
      es[1] == Fetch(ApiClient.Request(ItemUrl(id, host), Some("DELETE"), ApiClient.MergeHeaders(map[]), ApiClient.AsIs(Undefined))))
    ensures confirmed ==> var c := ApiClient.FetchApiAsWritten(t, host).settled;
      (Reload in es <==> c.Resolved? && Truthy(c.value) && Truthy(Field(c.value, "message")))
  {
    if !confirmed then []
    else Mutate(ItemUrl(id, host), ApiClient.Options(Some("DELETE"), map[], Undefined), t, host, Deleted, DeleteFailed)
  }

  /** The width of a goal card's bar and the number in its "% Complete" text. */
  function CardProgress(goal: Value, host: Host): (p: Option<real>)
    ensures p.Some? ==> p.value <= 100.0
  {
    Clamp(Progress(Field(goal, "current_amount"), Field(goal, "target_amount"), host))
  }

  /** A goal as the server stores it renders a bar between 0 and 100 percent. */
  lemma StoredGoalCard(id: int, g: Records.Goal, host: Host)
    requires g.target > 0.0 && g.current >= 0.0
    ensures CardProgress(Records.GoalJson(id, g), host).Some?
    ensures 0.0 <= CardProgress(Records.GoalJson(id, g), host).value <= 100.0
  {
    var fs := Records.GoalJson(id, g).fields;
    assert |fs[0].0| == 2 && |fs[1].0| == 4 && |fs[2].0| == 13 && |fs[3].0| == 14 && |fs[4].0| == 8;
    LookupAt(fs, 2, "target_amount");
    LookupAt(fs, 3, "current_amount");
    ValidGoalProgress(g.current, g.target, host);
  }

  /** What the server receives for an edit with a blank current amount:
      the target as a number and the current amount as null. (`formData.get`
      never yields undefined.) */
  lemma BlankCurrentBody(f: Form)
    requires AmountsValid(f) && f.current.None? && !f.deadline.Undefined?
    ensures Server.JsonBody(ApiClient.Wire(EditPayload(f))).Some?
    ensures var d := Server.JsonBody(ApiClient.Wire(EditPayload(f))).value;
      && "current_amount" in d && d["current_amount"] == Null
      && "target_amount" in d && d["target_amount"] == Num(f.target.value)
  {
    var p := EditPayload(f);
    var w := ApiClient.Wire(p);
    assert w.fields == ApiClient.WireFields(p, p.fields);
    assert w.fields[1] == ("target_amount", Num(f.target.value));
    assert w.fields[2] == ("current_amount", Null);
    assert |w.fields[2].0| == 14 && |w.fields[3].0| == 8 && |w.fields[1].0| == 13;
    LookupAt(w.fields, 1, "target_amount");
    LookupAt(w.fields, 2, "current_amount");
  }

  /** An edit submitted with the current amount left blank sends NaN, which
      the JSON encoding turns into null; the server's `float(None)` raises,
      so the update of an existing goal ends in a 500 whatever else the
      form holds. */
  lemma BlankCurrentOnEdit(g: Records.Table<Records.Goal>, id: int, f: Form, parse: string -> Option<real>)
    requires AmountsValid(f) && f.current.None? && !f.deadline.Undefined? && id in g.rows
    ensures Server.UpdateGoal(g, id, Server.JsonBody(ApiClient.Wire(EditPayload(f))), parse).0 == Server.Crash
  {
    BlankCurrentBody(f);
    var d := Server.JsonBody(ApiClient.Wire(EditPayload(f))).value;
    assert !Server.Empty(Some(d));
    assert Records.ToFloat(d["current_amount"], parse).TypeErr?;
    assert Records.ToFloat(d["target_amount"], parse) == Records.Float(f.target.value);
  }
  /** The 500 page that answers such an edit is not JSON, so `fetchAPI`
      reports the TypeError of its second body read rather than the page,
      and the handler's promise rejects with the spinner still on and the
      modal still open. */
  lemma CrashPageOnEdit(m: Modal, f: Form, today: int, page: string, host: Host)
    requires Editing(m) && Check(f, today, host, InvalidEdit).None?
    requires host.parseJson(page) == None
    ensures var t := ApiClient.Answered(ApiClient.HttpResponse(500, Some("text/html; charset=utf-8"), Some(page)));
      var r := SubmitEdit(m, f, today, t, host);
      && r.0[2] == Notify(Str("API Error: " + host.bodyUsedText), N.Error)
      && r.0[|r.0| - 1] == Uncaught
      && Spinner(false) !in r.0 && Reload !in r.0
      && r.1 == m
  {
    var r := ApiClient.HttpResponse(500, Some("text/html; charset=utf-8"), Some(page));
    assert ApiClient.Envelope(r, host).None?;
    assert ApiClient.FetchApiAsWritten(ApiClient.Answered(r), host).settled == ApiClient.Rejected(host.bodyUsedText);
  }
}

=== FILE: js.dfy ===
/** JavaScript values as the browser scripts see them: decoded JSON payloads,
    form values after `parseFloat`, and the few coercions the scripts rely on
    (truthiness, `||`, property reads, `String(v)`, `Number(v)`). */
module Js {
  import opened Wrappers
  import Text

  /** A JavaScript value. Objects keep their keys in insertion order, which
      is the order `Object.keys` reports for non-numeric keys. */
  datatype Value =
    | Undefined
    | Null
    | Bool(b: bool)
    | Num(n: real)
    | NaN
    | Str(s: string)
    | Arr(items: seq<Value>)
    | Obj(fields: seq<(string, Value)>)

  /** Engine behaviour the model does not write out: each is an oracle. */
  datatype Host = Host(
    parseJson: string -> Option<Value>,       // JSON.parse; None is a SyntaxError
    syntaxErrorText: string,                  // message of that SyntaxError
    bodyUsedText: string,                     // message of the TypeError a second body read rejects with
    numberText: real -> string,               // Number.prototype.toString
    stringToNumber: string -> Option<real>,   // ToNumber on a string; None is NaN
    currencyText: Option<real> -> string,     // toLocaleString('en-US', USD, 2 digits); None is NaN
    parseDate: Value -> Option<int>,          // new Date(v).getTime(); None is an Invalid Date
    dateText: int -> string                   // toLocaleDateString('en-US', short month, UTC)
  )

  /** The outcome of evaluating an expression that may throw. */
  datatype Completion<T> = Normal(value: T) | Threw

  /** JavaScript truthiness. */
  predicate Truthy(v: Value) {
    match v
    case Undefined => false
    case Null => false
    case Bool(b) => b
    case Num(n) => n != 0.0
    case NaN => false
    case Str(s) => s != ""
    case Arr(_) => true
    case Obj(_) => true
  }

  /** `a || b`. */
  function Or(a: Value, b: Value): (r: Value)
    ensures Truthy(a) ==> r == a
    ensures !Truthy(a) ==> r == b
  {
    if Truthy(a) then a else b
  }

  /** `typeof v === 'object'` (null included, as in JavaScript). */
  predicate IsObjectType(v: Value) {
    v.Null? || v.Arr? || v.Obj?
  }

  /** The value bound to `k`; a later binding hides an earlier one, as JSON.parse does. */
  function Lookup(fields: seq<(string, Value)>, k: string): (r: Value)
    ensures r != Undefined ==> exists i :: 0 <= i < |fields| && fields[i] == (k, r)
    ensures (forall i :: 0 <= i < |fields| ==> fields[i].0 != k) ==> r == Undefined
  {
    if |fields| == 0 then Undefined
    else if fields[|fields| - 1].0 == k then fields[|fields| - 1].1
    else Lookup(fields[..|fields| - 1], k)
  }

  /** A key bound at `i` and never again afterwards reads as that binding. */
  lemma {:induction false} LookupAt(fields: seq<(string, Value)>, i: nat, k: string)
    requires i < |fields| && fields[i].0 == k
    requires forall j :: i < j < |fields| ==> fields[j].0 != k
    ensures Lookup(fields, k) == fields[i].1
  {
    if i < |fields| - 1 {
      LookupAt(fields[..|fields| - 1], i, k);
    }
  }

  /** `v[k]` for a value that is not null or undefined. Arrays and strings
      expose `length`; no other built-in property is modelled. */
  function Field(v: Value, k: string): Value {
    match v
    case Obj(fs) => Lookup(fs, k)
    case Arr(items) => if k == "length" then Num(|items| as real) else Undefined
    case Str(s) => if k == "length" then Num(|s| as real) else Undefined
    case _ => Undefined
  }

  /** `v.k`: reading a property of null or undefined throws a TypeError. */
  function Get(v: Value, k: string): (r: Completion<Value>)
    ensures r.Threw? <==> v.Null? || v.Undefined?
    ensures Truthy(v) ==> r == Normal(Field(v, k))
  {
    if v.Null? || v.Undefined? then Threw else Normal(Field(v, k))
  }

  /** `String(v)`. */
  function ToText(v: Value, host: Host): string
    decreases v, 1
  {
    match v
    case Undefined => "undefined"
    case Null => "null"
    case Bool(b) => if b then "true" else "false"
    case Num(n) => host.numberText(n)
    case NaN => "NaN"
    case Str(s) => s
    case Arr(items) => JoinText(v, items, host)
    case Obj(_) => "[object Object]"
  }

  /** `items.join(',')`: null and undefined elements become empty text. */
  function JoinText(whole: Value, items: seq<Value>, host: Host): string
    requires forall i :: 0 <= i < |items| ==> items[i] < whole
    decreases whole, 0, |items|
  {
    if |items| == 0 then ""
    else
      var last := items[|items| - 1];
      var init := JoinText(whole, items[..|items| - 1], host);
      var piece := if last.Null? || last.Undefined? then "" else ToText(last, host);
      if |items| == 1 then piece else init + "," + piece
  }

  /** `Number(v)`; None stands for NaN. Arrays and objects go through their text. */
  function ToNumber(v: Value, host: Host): Option<real> {
    match v
    case Undefined => None
    case Null => Some(0.0)
    case Bool(b) => Some(if b then 1.0 else 0.0)
    case Num(n) => Some(n)
    case NaN => None
    case Str(s) => host.stringToNumber(s)
    case Arr(_) => host.stringToNumber(ToText(v, host))
    case Obj(_) => host.stringToNumber(ToText(v, host))
  }

  /** `v < x` for a number literal `x`: false whenever `v` converts to NaN. */
  predicate LessThan(v: Value, x: real, host: Host) {
    var n := ToNumber(v, host);
    n.Some? && n.value < x
  }

  /** `v > x` for a number literal `x`: false whenever `v` converts to NaN. */
  predicate GreaterThan(v: Value, x: real, host: Host) {
    var n := ToNumber(v, host);
    n.Some? && n.value > x
  }

  /** `parseFloat` result as a value: a parsed number or NaN. */
  function NumberOrNaN(x: Option<real>): (r: Value)
    ensures Truthy(r) <==> x.Some? && x.value != 0.0
  {
    match x
    case Some(n) => Num(n)
    case None => NaN
  }
}

=== FILE: notifications.dfy ===
/** The notification service of common.js: a lazily created notification
    area, newest notices first, each dismissed by a manual close or by its
    timeout. Timers are explicit events: `Fade` is the class change, `Remove`
    is the removal 500 ms later. */
module Notifications {
  import opened Wrappers

  datatype Severity = Info | Success | Error | Warning

  /** Default visible duration of a notice, in milliseconds. */
  const DefaultDurationMs: int := 3000
  /** Delay between the fade-out class and the removal, in milliseconds. */
  const FadeMs: int := 500

  /** One notice element; `fading` records the `fade-out` class. */
  datatype Notice = Notice(id: nat, message: string, severity: Severity, durationMs: int, fading: bool)

  /** A `notification-area` element and the notices it holds, top first. */
  datatype Area = Area(inDocument: bool, notices: seq<Notice>)

  /** Everything the service touches: whether `document.body` exists yet,
      the areas created so far in creation order, and the next notice id. */
  datatype Screen = Screen(bodyReady: bool, areas: seq<Area>, nextId: nat)

  /** A page before any notice was shown. */
  function Initial(bodyReady: bool): Screen {
    Screen(bodyReady, [], 0)
  }

  // ---------------------------------------------------------------------
  // Notice sequences
  // ---------------------------------------------------------------------

  function NoticeIds(ns: seq<Notice>): set<nat> {
    if |ns| == 0 then {} else {ns[0].id} + NoticeIds(ns[1..])
  }

  /** No two notices share an id: one element per notification. */
  predicate Unique(ns: seq<Notice>) {
    |ns| == 0 || (ns[0].id !in NoticeIds(ns[1..]) && Unique(ns[1..]))
  }

  /** The notices whose id is not `id`, order kept. */
  function Without(ns: seq<Notice>, id: nat): seq<Notice> {
    if |ns| == 0 then []
    else (if ns[0].id == id then [] else [ns[0]]) + Without(ns[1..], id)
  }

  /** The notices with the one whose id is `id` marked as fading. */
  function MarkFading(ns: seq<Notice>, id: nat): (r: seq<Notice>)
    ensures |r| == |ns|
    ensures forall i :: 0 <= i < |ns| ==> r[i].id == ns[i].id
  {
    seq(|ns|, i requires 0 <= i < |ns| => if ns[i].id == id then ns[i].(fading := true) else ns[i])
  }

  lemma {:induction false} NoticeIdsConcat(a: seq<Notice>, b: seq<Notice>)
    ensures NoticeIds(a + b) == NoticeIds(a) + NoticeIds(b)
  {
    if |a| > 0 {
      assert (a + b)[0] == a[0];
      assert (a + b)[1..] == a[1..] + b;
      NoticeIdsConcat(a[1..], b);
    } else {
      assert a + b == b;
    }
  }

  lemma {:induction false} NoticeIdsMember(ns: seq<Notice>, i: nat)
    requires i < |ns|
    ensures ns[i].id in NoticeIds(ns)
  {
    if i > 0 {
      NoticeIdsMember(ns[1..], i - 1);
    }
  }

  lemma {:induction false} UniqueConcat(a: seq<Notice>, b: seq<Notice>)
    ensures Unique(a + b) <==> Unique(a) && Unique(b) && NoticeIds(a) !! NoticeIds(b)
  {
    if |a| > 0 {
      assert (a + b)[1..] == a[1..] + b;
      UniqueConcat(a[1..], b);
      NoticeIdsConcat(a[1..], b);
    } else {
      assert a + b == b;
    }
  }

  lemma {:induction false} WithoutIds(ns: seq<Notice>, id: nat)
    ensures NoticeIds(Without(ns, id)) == NoticeIds(ns) - {id}
  {
    if |ns| > 0 {
      WithoutIds(ns[1..], id);
      NoticeIdsConcat(if ns[0].id == id then [] else [ns[0]], Without(ns[1..], id));
      assert NoticeIds([ns[0]]) == {ns[0].id} by {
        assert [ns[0]][1..] == [];
      }
    }
  }

  lemma {:induction false} WithoutAbsent(ns: seq<Notice>, id: nat)
    requires id !in NoticeIds(ns)
    ensures Without(ns, id) == ns
  {
    if |ns| > 0 {
      WithoutAbsent(ns[1..], id);
    }
  }

  lemma {:induction false} WithoutUnique(ns: seq<Notice>, id: nat)
    requires Unique(ns)
    ensures Unique(Without(ns, id))
  {
    if |ns| > 0 {
      WithoutUnique(ns[1..], id);
      WithoutIds(ns[1..], id);
      var head := if ns[0].id == id then [] else [ns[0]];
      UniqueConcat(head, Without(ns[1..], id));
      assert NoticeIds([ns[0]]) == {ns[0].id} by {
        assert [ns[0]][1..] == [];
      }
    }
  }

  lemma {:induction false} WithoutTwice(ns: seq<Notice>, id: nat)
    ensures Without(Without(ns, id), id) == Without(ns, id)
  {
    WithoutIds(ns, id);
    WithoutAbsent(Without(ns, id), id);
  }

  /** With unique ids, removing an id takes away exactly one notice if it was there, none otherwise. */
  lemma {:induction false} WithoutCount(ns: seq<Notice>, id: nat)
    requires Unique(ns)
    ensures |Without(ns, id)| == |ns| - (if id in NoticeIds(ns) then 1 else 0)
  {
    if |ns| > 0 {
      WithoutCount(ns[1..], id);
      if ns[0].id == id {
        WithoutAbsent(ns[1..], id);
      }
    }
  }

  lemma {:induction false} WithoutConcat(a: seq<Notice>, b: seq<Notice>, id: nat)
    ensures Without(a + b, id) == Without(a, id) + Without(b, id)
  {
    if |a| > 0 {
      assert (a + b)[1..] == a[1..] + b;
      WithoutConcat(a[1..], b, id);
    } else {
      assert a + b == b;
    }
  }

  lemma {:induction false} MarkFadingIds(ns: seq<Notice>, id: nat)
    ensures NoticeIds(MarkFading(ns, id)) == NoticeIds(ns)
    ensures Unique(ns) ==> Unique(MarkFading(ns, id))
  {
    if |ns| > 0 {
      assert MarkFading(ns, id)[1..] == MarkFading(ns[1..], id);
      MarkFadingIds(ns[1..], id);
    }
  }

  // ---------------------------------------------------------------------
  // The screen
  // ---------------------------------------------------------------------

  /** Every notice on the screen, area by area. */
  function AllNotices(areas: seq<Area>): seq<Notice> {
    if |areas| == 0 then [] else areas[0].notices + AllNotices(areas[1..])
  }

  function Ids(s: Screen): set<nat> {
    NoticeIds(AllNotices(s.areas))
  }

  /** One element per notification, and every id was handed out before. */
  predicate Wf(s: Screen) {
    Unique(AllNotices(s.areas)) && forall id :: id in Ids(s) ==> id < s.nextId
  }

  /** `document.getElementById('notification-area')`: the first area in the document. */
  function FindArea(areas: seq<Area>): (k: Option<nat>)
    ensures k.Some? ==> k.value < |areas| && areas[k.value].inDocument
    ensures k.Some? ==> forall j :: 0 <= j < k.value ==> !areas[j].inDocument
    ensures k.None? ==> forall j :: 0 <= j < |areas| ==> !areas[j].inDocument
  {
    if |areas| == 0 then None
    else if areas[0].inDocument then Some(0)
    else match FindArea(areas[1..])
      case None => None
      case Some(k) => Some(k + 1)
  }

  /** The notices a reader sees: those of the area the service finds. */
  function Visible(s: Screen): seq<Notice> {
    match FindArea(s.areas)
    case None => []
    case Some(k) => s.areas[k].notices
  }

  /** `showNotification(message, severity, durationMs)`. When no area is in
      the document, `createNotificationArea` makes a new one; it is attached
      now if the body exists and at DOMContentLoaded otherwise. */
  function Show(s: Screen, message: string, severity: Severity, durationMs: int): (t: Screen)
    ensures t.nextId == s.nextId + 1
    ensures t.bodyReady == s.bodyReady
    ensures var n := Notice(s.nextId, message, severity, durationMs, false);
      match FindArea(s.areas)
      case Some(k) =>
        && |t.areas| == |s.areas|
        && t.areas[k].notices == [n] + s.areas[k].notices
        && t.areas[k].inDocument
        && forall j :: 0 <= j < |s.areas| && j != k ==> t.areas[j] == s.areas[j]
      case None =>
        t.areas == s.areas + [Area(s.bodyReady, [n])]
  {
    var n := Notice(s.nextId, message, severity, durationMs, false);
    match FindArea(s.areas)
    case Some(k) =>
      var a := s.areas[k];
      s.(areas := s.areas[k := a.(notices := [n] + a.notices)], nextId := s.nextId + 1)
    case None =>
      s.(areas := s.areas + [Area(s.bodyReady, [n])], nextId := s.nextId + 1)
  }

  /** The `DOMContentLoaded` listener: every pending area is appended to the body. */
  function DomReady(s: Screen): (t: Screen)
    ensures t.bodyReady
    ensures |t.areas| == |s.areas|
    ensures forall j :: 0 <= j < |s.areas| ==> t.areas[j] == Area(true, s.areas[j].notices)
  {
    s.(bodyReady := true, areas := seq(|s.areas|, j requires 0 <= j < |s.areas| => Area(true, s.areas[j].notices)))
  }

  /** The `fade-out` class being added to notice `id` (close click or timeout). */
  function Fade(s: Screen, id: nat): (t: Screen)
    ensures |t.areas| == |s.areas| && t.nextId == s.nextId && t.bodyReady == s.bodyReady
    ensures forall j :: 0 <= j < |s.areas| ==>
      t.areas[j].inDocument == s.areas[j].inDocument && t.areas[j].notices == MarkFading(s.areas[j].notices, id)
  {
    s.(areas := seq(|s.areas|, j requires 0 <= j < |s.areas| =>
      s.areas[j].(notices := MarkFading(s.areas[j].notices, id))))
  }

  /** `notification.remove()` for notice `id`; removing a detached element does nothing. */
  function Remove(s: Screen, id: nat): (t: Screen)
    ensures |t.areas| == |s.areas| && t.nextId == s.nextId && t.bodyReady == s.bodyReady
    ensures forall j :: 0 <= j < |s.areas| ==>
      t.areas[j].inDocument == s.areas[j].inDocument && t.areas[j].notices == Without(s.areas[j].notices, id)
  {
    s.(areas := seq(|s.areas|, j requires 0 <= j < |s.areas| =>
      s.areas[j].(notices := Without(s.areas[j].notices, id))))
  }

  /** The timeout's removal: only when the notice still has a parent. */
  function AutoRemove(s: Screen, id: nat): Screen {
    if id in Ids(s) then Remove(s, id) else s
  }

  lemma {:induction false} AllNoticesSplit(areas: seq<Area>, k: nat)
    requires k < |areas|
    ensures AllNotices(areas) == AllNotices(areas[..k]) + areas[k].notices + AllNotices(areas[k + 1..])
  {
    if k == 0 {
      assert areas[..0] == [];
      assert areas[1..] == areas[k + 1..];
    } else {
      AllNoticesSplit(areas[1..], k - 1);
      assert areas[1..][..k - 1] == areas[1..k];
      assert areas[1..][k..] == areas[k + 1..];
      assert areas[..k][1..] == areas[1..k];
    }
  }

  lemma {:induction false} AllNoticesAppend(areas: seq<Area>, a: Area)
    ensures AllNotices(areas + [a]) == AllNotices(areas) + a.notices
  {
    if |areas| == 0 {
      assert (areas + [a])[1..] == [];
    } else {
      assert (areas + [a])[1..] == areas[1..] + [a];
      AllNoticesAppend(areas[1..], a);
    }
  }

  lemma {:induction false} AllNoticesRemove(s: Screen, id: nat)
    ensures AllNotices(Remove(s, id).areas) == Without(AllNotices(s.areas), id)
    decreases |s.areas|
  {
    if |s.areas| > 0 {
      var t := Remove(s, id);
      var s' := s.(areas := s.areas[1..]);
      assert Remove(s', id).areas == t.areas[1..];
      AllNoticesRemove(s', id);
      WithoutConcat(s.areas[0].notices, AllNotices(s.areas[1..]), id);
    }
  }

  lemma {:induction false} AllNoticesFade(s: Screen, id: nat)
    ensures NoticeIds(AllNotices(Fade(s, id).areas)) == NoticeIds(AllNotices(s.areas))
    ensures Unique(AllNotices(s.areas)) ==> Unique(AllNotices(Fade(s, id).areas))
    decreases |s.areas|
  {
    if |s.areas| > 0 {
      var t := Fade(s, id);
      var s' := s.(areas := s.areas[1..]);
      assert Fade(s', id).areas == t.areas[1..];
      AllNoticesFade(s', id);
      MarkFadingIds(s.areas[0].notices, id);
      NoticeIdsConcat(t.areas[0].notices, AllNotices(t.areas[1..]));
      NoticeIdsConcat(s.areas[0].notices, AllNotices(s.areas[1..]));
      UniqueConcat(t.areas[0].notices, AllNotices(t.areas[1..]));
      UniqueConcat(s.areas[0].notices, AllNotices(s.areas[1..]));
    }
  }

  lemma {:induction false} AllNoticesDomReady(s: Screen)
    ensures AllNotices(DomReady(s).areas) == AllNotices(s.areas)
    decreases |s.areas|
  {
    if |s.areas| > 0 {
      var s' := s.(areas := s.areas[1..]);
      assert DomReady(s').areas == DomReady(s).areas[1..];
      AllNoticesDomReady(s');
    }
  }

  /** Putting `n` on top of area `k` adds its id to the screen. */
  lemma {:induction false} PrependAt(areas: seq<Area>, k: nat, n: Notice)
    requires k < |areas|
    ensures var t := areas[k := areas[k].(notices := [n] + areas[k].notices)];
      && NoticeIds(AllNotices(t)) == NoticeIds(AllNotices(areas)) + {n.id}
      && (Unique(AllNotices(areas)) && n.id !in NoticeIds(AllNotices(areas)) ==> Unique(AllNotices(t)))
  {
    var t := areas[k := areas[k].(notices := [n] + areas[k].notices)];
    AllNoticesSplit(areas, k);
    AllNoticesSplit(t, k);
    assert t[..k] == areas[..k];
    assert t[k + 1..] == areas[k + 1..];
    var a, b, c := AllNotices(areas[..k]), areas[k].notices, AllNotices(areas[k + 1..]);
    assert AllNotices(areas) == a + (b + c);
    assert AllNotices(t) == a + ([n] + (b + c));
    assert NoticeIds([n]) == {n.id} by {
      assert [n][1..] == [];
    }
    NoticeIdsConcat(a, b + c);
    NoticeIdsConcat(a, [n] + (b + c));
    NoticeIdsConcat([n], b + c);
    UniqueConcat(a, b + c);
    UniqueConcat(a, [n] + (b + c));
    UniqueConcat([n], b + c);
  }

  /** Showing a notice adds exactly the fresh id and keeps one element per notification. */
  lemma ShowKeepsWf(s: Screen, message: string, severity: Severity, durationMs: int)
    requires Wf(s)
    ensures Wf(Show(s, message, severity, durationMs))
    ensures Ids(Show(s, message, severity, durationMs)) == Ids(s) + {s.nextId}
  {
    var t := Show(s, message, severity, durationMs);
    var n := Notice(s.nextId, message, severity, durationMs, false);
    match FindArea(s.areas)
    case Some(k) =>
      PrependAt(s.areas, k, n);
      assert t.areas == s.areas[k := s.areas[k].(notices := [n] + s.areas[k].notices)];
      WfBound(s, t);
    case None =>
      assert NoticeIds([n]) == {n.id} by {
        assert [n][1..] == [];
      }
      AllNoticesAppend(s.areas, Area(s.bodyReady, [n]));
      NoticeIdsConcat(AllNotices(s.areas), [n]);
      UniqueConcat(AllNotices(s.areas), [n]);
      WfBound(s, t);
  }

  lemma WfBound(s: Screen, t: Screen)
    requires Wf(s) && t.nextId == s.nextId + 1 && Ids(t) == Ids(s) + {s.nextId}
    ensures forall x :: x in Ids(t) ==> x < t.nextId
  {
  }

  /** A new notice goes on top of the visible list once the body exists. */
  lemma NewestFirst(s: Screen, message: string, severity: Severity, durationMs: int)
    requires s.bodyReady
    ensures Visible(Show(s, message, severity, durationMs))
         == [Notice(s.nextId, message, severity, durationMs, false)] + Visible(s)
  {
    var t := Show(s, message, severity, durationMs);
    match FindArea(s.areas)
    case Some(k) =>
      assert FindArea(t.areas) == Some(k) by {
        FindAreaSame(s.areas, t.areas, k);
      }
    case None =>
      FindAreaAppend(s.areas, Area(true, t.areas[|s.areas|].notices));
  }

  lemma {:induction false} FindAreaSame(a: seq<Area>, b: seq<Area>, k: nat)
    requires |a| == |b| && k < |a| && a[k].inDocument && b[k].inDocument
    requires forall j :: 0 <= j < k ==> a[j].inDocument == b[j].inDocument
    requires FindArea(a) == Some(k)
    ensures FindArea(b) == Some(k)
  {
    if k > 0 {
      FindAreaSame(a[1..], b[1..], k - 1);
    }
  }

  lemma {:induction false} FindAreaAppend(a: seq<Area>, x: Area)
    requires FindArea(a).None? && x.inDocument
    ensures FindArea(a + [x]) == Some(|a|)
  {
    if |a| > 0 {
      assert (a + [x])[1..] == a[1..] + [x];
      FindAreaAppend(a[1..], x);
    }
  }

  /** Removal takes away exactly the notice `id`, keeps one element per
      notification, and the visible list keeps its order. */
  lemma RemoveKeepsWf(s: Screen, id: nat)
    requires Wf(s)
    ensures Wf(Remove(s, id))
    ensures Ids(Remove(s, id)) == Ids(s) - {id}
    ensures |AllNotices(Remove(s, id).areas)| == |AllNotices(s.areas)| - (if id in Ids(s) then 1 else 0)
  {
    AllNoticesRemove(s, id);
    WithoutIds(AllNotices(s.areas), id);
    WithoutUnique(AllNotices(s.areas), id);
    WithoutCount(AllNotices(s.areas), id);
  }

  /** Fading changes no id and keeps one element per notification. */
  lemma FadeKeepsWf(s: Screen, id: nat)
    requires Wf(s)
    ensures Wf(Fade(s, id)) && Ids(Fade(s, id)) == Ids(s)
  {
    AllNoticesFade(s, id);
    forall x | x in Ids(Fade(s, id)) ensures x < Fade(s, id).nextId {
      assert x in Ids(s);
    }
  }

  /** Attaching the pending areas loses no notice. */
  lemma DomReadyKeepsWf(s: Screen)
    requires Wf(s)
    ensures Wf(DomReady(s)) && Ids(DomReady(s)) == Ids(s)
  {
    AllNoticesDomReady(s);
    forall x | x in Ids(DomReady(s)) ensures x < DomReady(s).nextId {
      assert x in Ids(s);
    }
  }

  /** A manual close followed by the timeout (or the reverse) removes the
      notice once: the second removal changes nothing. */
  lemma DismissTwiceIsOnce(s: Screen, id: nat)
    ensures Remove(Remove(s, id), id) == Remove(s, id)
    ensures AutoRemove(Remove(s, id), id) == Remove(s, id)
  {
    var t := Remove(s, id);
    forall j | 0 <= j < |s.areas|
      ensures Remove(t, id).areas[j] == t.areas[j]
    {
      WithoutTwice(s.areas[j].notices, id);
    }
    AllNoticesRemove(s, id);
    WithoutIds(AllNotices(s.areas), id);
  }

  /** The guarded removal of the timeout is the plain removal. */
  lemma AutoRemoveIsRemove(s: Screen, id: nat)
    ensures AutoRemove(s, id) == Remove(s, id)
  {
    if id !in Ids(s) {
      var t := Remove(s, id);
      forall j | 0 <= j < |s.areas|
        ensures t.areas[j] == s.areas[j]
      {
        AllNoticesSplit(s.areas, j);
        NoticeIdsConcat(AllNotices(s.areas[..j]) + s.areas[j].notices, AllNotices(s.areas[j + 1..]));
        NoticeIdsConcat(AllNotices(s.areas[..j]), s.areas[j].notices);
        WithoutAbsent(s.areas[j].notices, id);
      }
    }
  }
}

=== FILE: ordering.dfy ===
/** The one sort both sides perform: a stable sort into descending order of
    a numeric key (the server's categories by amount, the transactions page's
    rows by date). An element without a key compares as equal to everything,
    as a NaN comparator result does. */
module Ordering {
  import opened Wrappers

  /** `a` goes strictly ahead of `b`. */
  predicate Before<T>(key: T -> Option<real>, a: T, b: T) {
    key(a).Some? && key(b).Some? && key(a).value > key(b).value
  }

  /** No element goes strictly ahead of one placed earlier. */
  predicate Descending<T>(key: T -> Option<real>, s: seq<T>) {
    forall i, j :: 0 <= i < j < |s| ==> !Before(key, s[j], s[i])
  }

  /** Every element has a key. */
  predicate AllKeyed<T>(key: T -> Option<real>, s: seq<T>) {
    forall i :: 0 <= i < |s| ==> key(s[i]).Some?
  }

  /** Place `x` ahead of the first element it goes strictly ahead of, so it
      lands after every element whose key it ties. */
  function Insert<T>(key: T -> Option<real>, x: T, s: seq<T>): seq<T> {
    if |s| == 0 then [x]
    else if Before(key, x, s[0]) then [x] + s
    else [s[0]] + Insert(key, x, s[1..])
  }

  /** Insertion sort, taking the elements in their original order. */
  function SortDesc<T>(key: T -> Option<real>, s: seq<T>): seq<T> {
    if |s| == 0 then [] else Insert(key, s[|s| - 1], SortDesc(key, s[..|s| - 1]))
  }

  lemma {:induction false} InsertPermutes<T>(key: T -> Option<real>, x: T, s: seq<T>)
    ensures multiset(Insert(key, x, s)) == multiset(s) + multiset{x}
  {
    if |s| > 0 && !Before(key, x, s[0]) {
      InsertPermutes(key, x, s[1..]);
      assert s == [s[0]] + s[1..];
    }
  }

  lemma {:induction false} InsertDescending<T>(key: T -> Option<real>, x: T, s: seq<T>)
    requires AllKeyed(key, s) && key(x).Some? && Descending(key, s)
    ensures Descending(key, Insert(key, x, s))
  {
    if |s| == 0 {
    } else if Before(key, x, s[0]) {
      var r := [x] + s;
      forall i, j | 0 <= i < j < |r| ensures !Before(key, r[j], r[i]) {
        if i == 0 {
          assert r[j] == s[j - 1];
          if j - 1 > 0 {
            assert !Before(key, s[j - 1], s[0]);
          }
        } else {
          assert r[i] == s[i - 1] && r[j] == s[j - 1];
        }
      }
    } else {
      var tail := Insert(key, x, s[1..]);
      InsertDescending(key, x, s[1..]);
      InsertPermutes(key, x, s[1..]);
      var r := [s[0]] + tail;
      forall i, j | 0 <= i < j < |r| ensures !Before(key, r[j], r[i]) {
        if i == 0 {
          var e := tail[j - 1];
          assert e in multiset(tail);
          if e != x {
            assert e in multiset(s[1..]);
            var k :| 0 <= k < |s[1..]| && s[1..][k] == e;
            assert s[k + 1] == e;
          }
        } else {
          assert r[i] == tail[i - 1] && r[j] == tail[j - 1];
        }
      }
    }
  }

  /** The sort is a permutation of its input. */
  lemma {:induction false} SortPermutes<T>(key: T -> Option<real>, s: seq<T>)
    ensures multiset(SortDesc(key, s)) == multiset(s)
  {
    if |s| > 0 {
      SortPermutes(key, s[..|s| - 1]);
      InsertPermutes(key, s[|s| - 1], SortDesc(key, s[..|s| - 1]));
      assert s == s[..|s| - 1] + [s[|s| - 1]];
    }
  }

  /** With every key present, the sort's output is in descending key order. */
  lemma {:induction false} SortIsDescending<T>(key: T -> Option<real>, s: seq<T>)
    requires AllKeyed(key, s)
    ensures Descending(key, SortDesc(key, s))
  {
    if |s| > 0 {
      var init := s[..|s| - 1];
      SortIsDescending(key, init);
      SortPermutes(key, init);
      forall i | 0 <= i < |SortDesc(key, init)| ensures key(SortDesc(key, init)[i]).Some? {
        var e := SortDesc(key, init)[i];
        assert e in multiset(init);
      }
      InsertDescending(key, s[|s| - 1], SortDesc(key, init));
    }
  }

  /** Same length as the input. */
  lemma SortLength<T>(key: T -> Option<real>, s: seq<T>)
    ensures |SortDesc(key, s)| == |s|
  {
    SortPermutes(key, s);
    assert |multiset(SortDesc(key, s))| == |multiset(s)|;
  }

  /** Where `Insert` puts `x`. */
  function InsertPos<T>(key: T -> Option<real>, x: T, s: seq<T>): (k: nat)
    ensures k <= |s|
    ensures Insert(key, x, s) == s[..k] + [x] + s[k..]
  {
    if |s| == 0 then 0
    else if Before(key, x, s[0]) then 0
    else
      var k := InsertPos(key, x, s[1..]);
      assert s[..k + 1] == [s[0]] + s[1..][..k];
      assert s[k + 1..] == s[1..][k..];
      k + 1
  }
}

=== FILE: page.dfy ===
/** The decision logic the three page scripts share: what a handler does
    around an `await fetchAPI(...)`, how it reacts to the resolved value,
    which of the three list renderings it picks, the edit-modal state, and
    the goal progress percentage. A handler is a function from its inputs
    (form values, the transport outcome, the user's confirmation) to the
    effects it performs in order. */
module Page {
  import opened Wrappers
  import opened Js
  import N = Notifications
  import ApiClient

  /** One visible effect of a page script. */
  datatype Effect =
    | Notify(message: Value, severity: N.Severity)   // showNotification(message, type)
    | Spinner(on: bool)                              // toggleLoadingSpinner(on)
    | Fetch(request: ApiClient.Request)              // the request fetchAPI hands to fetch
    | ClearList                                      // innerHTML = ''
    | ShowItems(items: seq<Value>)                   // one row or card per item, in this order
    | ShowFailure                                    // the "Failed to load" placeholder
    | ShowEmpty                                      // the empty-state placeholder
    | ResetForm                                      // form.reset()
    | HideModal                                      // modal display 'none'
    | ShowModal                                      // modal display 'block'
    | Reload                                         // the page's load function runs again
    | Uncaught                                       // the handler's promise rejects
    // Dashboard only:
    | Summary(income: string, expenses: string, balance: string, negative: bool)
    | Recent(items: seq<Value>)
    | RecentPlaceholder
    | Goals(bars: seq<Bar>)
    | GoalsPlaceholder
    | Chart(labels: seq<string>, data: seq<Value>, colors: seq<string>)
    | ChartPlaceholder
    | Bars(incomeBar: Value, expenseBar: Value)
    | SummaryError

  /** A dashboard goal bar: the clamped width and the unclamped `aria-valuenow`;
      None is NaN. */
  datatype Bar = Bar(width: Option<real>, valueNow: Option<real>)

  /** The notices fetchAPI raised, as effects. */
  function Notices(ns: seq<(string, N.Severity)>): (es: seq<Effect>)
    ensures |es| == |ns|
    ensures forall i :: 0 <= i < |ns| ==> es[i] == Notify(Str(ns[i].0), ns[i].1)
  {
    if |ns| == 0 then [] else Notices(ns[..|ns| - 1]) + [Notify(Str(ns[|ns| - 1].0), ns[|ns| - 1].1)]
  }

  /** Some request was sent. */
  predicate Sends(es: seq<Effect>) {
    exists i :: 0 <= i < |es| && es[i].Fetch?
  }

  /** `toggleLoadingSpinner(true); const response = await fetchAPI(url, o);`:
      the effects up to the await, and how the call settled. */
  function Await(url: string, o: ApiClient.Options, t: ApiClient.Transport, host: Host): (r: (seq<Effect>, ApiClient.Settled))
    ensures r.1 == ApiClient.FetchApiAsWritten(t, host).settled
    ensures |r.0| >= 2 && r.0[..2] == [Spinner(true), Fetch(ApiClient.Prepare(url, o))]
    ensures forall i :: 2 <= i < |r.0| ==> r.0[i].Notify?
    ensures r.1.Resolved? ==> |r.0| == 2
    ensures r.1.Rejected? ==> r.0 == r.0[..2] + [Notify(Str("API Error: " + r.1.message), N.Error)]
  {
    var c := ApiClient.FetchApiAsWritten(t, host);
    ([Spinner(true), Fetch(ApiClient.Prepare(url, o))] + Notices(c.notices), c.settled)
  }

  /** How a handler reacts to a resolved value. */
  datatype Reaction = Succeeded | Failed(message: Value) | Crashed

  /** `if (response && response[key]) { ... } else { showNotification(response.error || fallback, 'error') }`.
      The else branch reads `response.error` unguarded, so null and
      undefined make it throw. */
  function React(v: Value, key: string, fallback: string): (r: Reaction)
    ensures r.Succeeded? <==> Truthy(v) && Truthy(Field(v, key))
    ensures r.Crashed? <==> v.Null? || v.Undefined?
    ensures r.Failed? && Truthy(Field(v, "error")) ==> r.message == Field(v, "error")
    ensures r.Failed? && !Truthy(Field(v, "error")) ==> r.message == Str(fallback)
  {
    if Truthy(v) && Truthy(Field(v, key)) then Succeeded
    else match Get(v, "error")
      case Threw => Crashed
      case Normal(e) => Failed(Or(e, Str(fallback)))
  }

  /** What a successful mutation does next. */
  datatype OnSuccess =
    | Added(text: string)     // notify, reset the add form, reload
    | Updated(text: string)   // notify, close the modal, reload
    | Deleted                 // notify the server's message, reload

  /** The property whose truthiness means success. */
  function SuccessKey(s: OnSuccess): string {
    if s.Deleted? then "message" else "id"
  }

  function SuccessEffects(s: OnSuccess, v: Value): seq<Effect> {
    match s
    case Added(text) => [Notify(Str(text), N.Success), ResetForm, Reload]
    case Updated(text) => [Notify(Str(text), N.Success), HideModal, ResetForm, Reload]
    case Deleted => [Notify(Field(v, "message"), N.Success), Reload]
  }

  /** What a mutation handler does after its await. */
  function After(settled: ApiClient.Settled, s: OnSuccess, fallback: string): (es: seq<Effect>)
    ensures settled.Rejected? ==> es == [Uncaught]
    ensures settled.Resolved? ==> |es| >= 2 && es[0] == Spinner(false) && Spinner(false) !in es[1..]
    ensures Reload in es <==> settled.Resolved? && React(settled.value, SuccessKey(s), fallback).Succeeded?
    ensures HideModal in es <==> s.Updated? && Reload in es
    ensures ResetForm in es <==> !s.Deleted? && Reload in es
    ensures settled.Resolved? && React(settled.value, SuccessKey(s), fallback).Failed? ==>
      es == [Spinner(false), Notify(React(settled.value, SuccessKey(s), fallback).message, N.Error)]
    ensures settled.Resolved? && React(settled.value, SuccessKey(s), fallback).Crashed? ==>
      es == [Spinner(false), Uncaught]
    ensures settled.Resolved? && React(settled.value, SuccessKey(s), fallback).Succeeded? ==>
      es[1] == (if s.Deleted? then Notify(Field(settled.value, "message"), N.Success) else Notify(Str(s.text), N.Success))
  {
    match settled
    case Rejected(_) => [Uncaught]
    case Resolved(v) =>
      [Spinner(false)] + match React(v, SuccessKey(s), fallback)
        case Succeeded => SuccessEffects(s, v)
        case Failed(m) => [Notify(m, N.Error)]
        case Crashed => [Uncaught]
  }

  /** An add, update or delete handler from the spinner on: await the call,
      switch the spinner off, then dispatch on the response. A rejected call
      ends the handler at the await. */
  function Mutate(url: string, o: ApiClient.Options, t: ApiClient.Transport, host: Host, s: OnSuccess, fallback: string)
    : (es: seq<Effect>)
    ensures |es| >= 2 && es[..2] == [Spinner(true), Fetch(ApiClient.Prepare(url, o))]
    ensures Sends(es)
    ensures ApiClient.FetchApiAsWritten(t, host).settled.Rejected? ==>
      && es == [Spinner(true), Fetch(ApiClient.Prepare(url, o)),
                Notify(Str("API Error: " + ApiClient.FetchApiAsWritten(t, host).settled.message), N.Error), Uncaught]
      && Spinner(false) !in es && Reload !in es && ResetForm !in es
    ensures ApiClient.FetchApiAsWritten(t, host).settled.Resolved? ==>
      |es| >= 3 && es[2] == Spinner(false)
    ensures Reload in es <==>
      && ApiClient.FetchApiAsWritten(t, host).settled.Resolved?
      && React(ApiClient.FetchApiAsWritten(t, host).settled.value, SuccessKey(s), fallback).Succeeded?
    ensures HideModal in es <==> s.Updated? && Reload in es
    ensures ResetForm in es <==> !s.Deleted? && Reload in es
    ensures ApiClient.FetchApiAsWritten(t, host).settled.Resolved? ==>
      var v := ApiClient.FetchApiAsWritten(t, host).settled.value;
      && |es| >= 4
      && (React(v, SuccessKey(s), fallback).Failed? ==>
            es[2..] == [Spinner(false), Notify(React(v, SuccessKey(s), fallback).message, N.Error)])
      && (React(v, SuccessKey(s), fallback).Crashed? ==> es[2..] == [Spinner(false), Uncaught])
      && (React(v, SuccessKey(s), fallback).Succeeded? ==>
            es[3] == (if s.Deleted? then Notify(Field(v, "message"), N.Success) else Notify(Str(s.text), N.Success)))
  {
    var (pre, settled) := Await(url, o, t, host);
    var post := After(settled, s, fallback);
    assert pre[1].Fetch?;
    assert Reload !in pre && HideModal !in pre && ResetForm !in pre && Spinner(false) !in pre;
    var es := pre + post;
    assert es[..2] == pre[..2];
    assert settled.Resolved? ==> es[2..] == post;
    assert Reload in es <==> Reload in post;
    assert HideModal in es <==> HideModal in post;
    assert ResetForm in es <==> ResetForm in post;
    assert Spinner(false) in es <==> Spinner(false) in post;
    es
  }

  /** Which rendering a load function picks. */
  datatype Branch = Items(items: seq<Value>) | Failure(error: Value) | Empty

  /** `if (response && Array.isArray(response) && response.length > 0) ...
      else if (response && response.error) ... else ...`. */
  function ChooseBranch(v: Value): (b: Branch)
    ensures b.Items? <==> v.Arr? && |v.items| > 0
    ensures b.Items? ==> b.items == v.items
    ensures b.Failure? <==> !(v.Arr? && |v.items| > 0) && Truthy(v) && Truthy(Field(v, "error"))
    ensures b.Failure? ==> b.error == Field(v, "error") && Truthy(b.error)
  {
    if v.Arr? && |v.items| > 0 then Items(v.items)
    else if Truthy(v) && Truthy(Field(v, "error")) then Failure(Field(v, "error"))
    else Empty
  }

  /** A load function after its await: clear the list, then exactly one of
      the three renderings. `order` is what happens to the items first. */
  function Render(v: Value, order: seq<Value> -> seq<Value>): (es: seq<Effect>)
    ensures |es| >= 2 && es[0] == ClearList
    ensures ChooseBranch(v).Items? ==> es == [ClearList, ShowItems(order(v.items))]
    ensures ChooseBranch(v).Failure? ==> es == [ClearList, Notify(Field(v, "error"), N.Error), ShowFailure]
    ensures ChooseBranch(v).Empty? ==> es == [ClearList, ShowEmpty]
  {
    [ClearList] + match ChooseBranch(v)
      case Items(items) => [ShowItems(order(items))]
      case Failure(e) => [Notify(e, N.Error), ShowFailure]
      case Empty => [ShowEmpty]
  }

  /** A load function: spinner on, `await fetchAPI(url)`, spinner off, and,
      when the list element exists, the rendering. */
  function Load(url: string, t: ApiClient.Transport, host: Host, present: bool, order: seq<Value> -> seq<Value>)
    : (es: seq<Effect>)
    ensures |es| >= 2 && es[..2] == [Spinner(true), Fetch(ApiClient.Prepare(url, ApiClient.Options(None, map[], Undefined)))]
    ensures ApiClient.FetchApiAsWritten(t, host).settled.Rejected? ==>
      es == [Spinner(true), Fetch(ApiClient.Prepare(url, ApiClient.Options(None, map[], Undefined))),
             Notify(Str("API Error: " + ApiClient.FetchApiAsWritten(t, host).settled.message), N.Error), Uncaught]
    ensures ApiClient.FetchApiAsWritten(t, host).settled.Resolved? ==>
      es == [Spinner(true), Fetch(ApiClient.Prepare(url, ApiClient.Options(None, map[], Undefined))), Spinner(false)]
        + (if present then Render(ApiClient.FetchApiAsWritten(t, host).settled.value, order) else [])
  {
    var (pre, settled) := Await(url, ApiClient.Options(None, map[], Undefined), t, host);
    assert forall i :: 2 <= i < |pre| ==> pre[i].Notify?;
    pre + match settled
      case Rejected(_) => [Uncaught]
      case Resolved(v) => [Spinner(false)] + (if present then Render(v, order) else [])
  }

  /** The edit modal: the id being edited and whether the modal shows. */
  datatype Modal = Modal(editingId: Value, shown: bool)

  const Closed: Modal := Modal(Null, false)

  /** `closeEditModal`: hide, forget the id, reset the form. */
  function Close(m: Modal): (r: (seq<Effect>, Modal))
    ensures r.1 == Closed && !Editing(r.1)
    ensures r.0 == [HideModal, ResetForm]
  {
    ([HideModal, ResetForm], Closed)
  }

  /** `if (!editingId) return;`: a submit only proceeds while editing. */
  predicate Editing(m: Modal) {
    Truthy(m.editingId)
  }

  /** An edit submit handler: a no-op unless an id is being edited, then the
      handler `proceed`, whose success closes the modal. */
  function SubmitEdit(m: Modal, proceed: seq<Effect>): (r: (seq<Effect>, Modal))
    ensures !Editing(m) ==> r == ([], m)
    ensures Editing(m) ==> r.0 == proceed
    ensures Editing(m) && HideModal in proceed ==> r.1 == Closed
    ensures HideModal !in proceed ==> r.1 == m
  {
    if !Editing(m) then ([], m)
    else (proceed, if HideModal in proceed then Closed else m)
  }

  /** `target > 0 ? (current / target) * 100 : 0`; None is NaN. */
  function Progress(current: Value, target: Value, host: Host): (p: Option<real>)
    ensures !GreaterThan(target, 0.0, host) ==> p == Some(0.0)
    ensures GreaterThan(target, 0.0, host) && ToNumber(current, host).None? ==> p.None?
    ensures GreaterThan(target, 0.0, host) && ToNumber(current, host).Some? ==>
      p.Some? && p.value * ToNumber(target, host).value == ToNumber(current, host).value * 100.0
  {
    if !GreaterThan(target, 0.0, host) then Some(0.0)
    else match ToNumber(current, host)
      case None => None
      case Some(c) => Some(c / ToNumber(target, host).value * 100.0)
  }

  /** `Math.min(p, 100)`, NaN staying NaN. */
  function Clamp(p: Option<real>): (r: Option<real>)
    ensures r.None? <==> p.None?
    ensures r.Some? ==> r.value <= 100.0 && r.value <= p.value
    ensures r.Some? ==> r.value == p.value || r.value == 100.0
  {
    match p
    case None => None
    case Some(x) => Some(if x < 100.0 then x else 100.0)
  }

  /** With a positive second factor, a product has the sign of the first. */
  lemma SignOfFactor(x: real, y: real)
    requires y > 0.0
    ensures x * y >= 0.0 ==> x >= 0.0
    ensures x * y > 0.0 ==> x > 0.0
  {
    if x < 0.0 {
      assert x * y < 0.0;
    } else if x == 0.0 {
      assert x * y == 0.0;
    }
  }

  /** A goal the server accepts (target above 0, current at least 0) has a
      progress that is a number and at least 0, and a clamped progress
      between 0 and 100 that is the progress itself until the goal is met. */
  lemma ValidGoalProgress(current: real, target: real, host: Host)
    requires target > 0.0 && current >= 0.0
    ensures Progress(Num(current), Num(target), host) == Some(current / target * 100.0)
    ensures 0.0 <= Clamp(Progress(Num(current), Num(target), host)).value <= 100.0
    ensures current <= target ==> Clamp(Progress(Num(current), Num(target), host)) == Progress(Num(current), Num(target), host)
    ensures current >= target ==> Clamp(Progress(Num(current), Num(target), host)) == Some(100.0)
  {
    var q := current / target;
    assert q * target == current;
    SignOfFactor(q, target);
    if current <= target {
      assert (1.0 - q) * target == target - current;
      SignOfFactor(1.0 - q, target);
    } else {
      assert (q - 1.0) * target == current - target;
      SignOfFactor(q - 1.0, target);
    }
  }
}

=== FILE: records.dfy ===
/** The rows of the two SQLite tables and the Python conversions the
    request handlers of app.py apply to request values. The store is an
    abstract map from row id to row. */
module Records {
  import opened Wrappers
  import opened Js

  /** The `type` column: the table only admits these two words. */
  datatype Kind = Income | Expense

  function KindName(k: Kind): string {
    match k
    case Income => "income"
    case Expense => "expense"
  }

  /** `value in ['income', 'expense']`, with the kind it names. */
  function ParseKind(v: Value): (r: Option<Kind>)
    ensures r.Some? <==> v == Str("income") || v == Str("expense")
    ensures r.Some? ==> v == Str(KindName(r.value))
  {
    if v == Str("income") then Some(Income)
    else if v == Str("expense") then Some(Expense)
    else None
  }

  /** Naming a kind and parsing the name back gives the kind. */
  lemma KindRoundTrip(k: Kind)
    ensures ParseKind(Str(KindName(k))) == Some(k)
  {
  }

  /** A row of `transactions`, without its id. Text columns keep the request value. */
  datatype Transaction = Transaction(kind: Kind, category: Value, amount: real, date: Value, description: Value)

  /** A row of `goals`, without its id. */
  datatype Goal = Goal(name: Value, target: real, current: real, deadline: Value)

  /** A table: rows by id, and the id AUTOINCREMENT hands out next. */
  datatype Table<R> = Table(rows: map<int, R>, nextId: int)

  /** AUTOINCREMENT never hands out an id already in use. */
  predicate FreshIds<R>(t: Table<R>) {
    forall id :: id in t.rows ==> id < t.nextId
  }

  /** `INSERT`: the new row gets the next id. */
  function Append<R>(t: Table<R>, r: R): (u: Table<R>)
    requires FreshIds(t)
    ensures t.nextId !in t.rows
    ensures u.rows == t.rows[t.nextId := r] && u.nextId == t.nextId + 1
    ensures FreshIds(u)
  {
    Table(t.rows[t.nextId := r], t.nextId + 1)
  }

  /** A row as `dict(row)` renders it, columns in schema order. */
  function TransactionJson(id: int, t: Transaction): Value {
    Obj([("id", Num(id as real)), ("type", Str(KindName(t.kind))), ("category", t.category),
         ("amount", Num(t.amount)), ("date", t.date), ("description", t.description)])
  }

  function GoalJson(id: int, g: Goal): Value {
    Obj([("id", Num(id as real)), ("name", g.name), ("target_amount", Num(g.target)),
         ("current_amount", Num(g.current)), ("deadline", g.deadline)])
  }

  /** Python `float(v)`: a number, a ValueError, or a TypeError. */
  datatype PyFloat = Float(x: real) | ValueErr | TypeErr

  /** `float(v)` on a decoded JSON value; `parse` is Python's float syntax for strings. */
  function ToFloat(v: Value, parse: string -> Option<real>): (r: PyFloat)
    ensures r.ValueErr? <==> v.Str? && parse(v.s).None?
    ensures r.TypeErr? <==> !(v.Num? || v.Bool? || v.Str?)
    ensures v.Num? ==> r == Float(v.n)
    ensures v.Str? && parse(v.s).Some? ==> r == Float(parse(v.s).value)
    ensures v.Bool? ==> r == Float(if v.b then 1.0 else 0.0)
  {
    match v
    case Num(n) => Float(n)
    case Bool(b) => Float(if b then 1.0 else 0.0)
    case Str(s) => (match parse(s) case Some(x) => Float(x) case None => ValueErr)
    case _ => TypeErr
  }
}

=== FILE: server.dfy ===
/** The JSON endpoints of app.py for transactions and goals: required-field,
    amount and type validation in the order the handlers perform it, the
    partial-update merge, and deletion, over an abstract table. */
module Server {
  import opened Wrappers
  import opened Js
  import opened Records

  /** A Flask response: a JSON body with a status, or the 500 page Flask
      serves when a handler raises an exception it does not catch. */
  datatype Reply = Json(status: nat, body: Value) | Crash

  /** `request.get_json()`: no body, or a JSON object. */
  type Body = Option<map<string, Value>>

  /** A decoded JSON object as the Python dict `get_json` builds from it: a
      repeated key keeps its last value. */
  function ObjectMap(fields: seq<(string, Value)>): (m: map<string, Value>)
    ensures forall i :: 0 <= i < |fields| ==> fields[i].0 in m
    ensures forall k :: k in m ==> m[k] == Lookup(fields, k)
    ensures forall k :: k !in m ==> Lookup(fields, k) == Undefined
    ensures forall k :: k in m <==> exists i :: 0 <= i < |fields| && fields[i].0 == k
  {
    if |fields| == 0 then map[]
    else ObjectMap(fields[..|fields| - 1])[fields[|fields| - 1].0 := fields[|fields| - 1].1]
  }

  /** The body of a request whose JSON text decodes to `v`. Only objects
      are modelled; any other JSON value is treated as no body. */
  function JsonBody(v: Value): Body {
    if v.Obj? then Some(ObjectMap(v.fields)) else None
  }

  function Error(status: nat, message: string): Reply {
    Json(status, Obj([("error", Str(message))]))
  }

  function Message(message: string): Reply {
    Json(200, Obj([("message", Str(message))]))
  }

  /** `not data`: no body, or an empty object. */
  predicate Empty(body: Body) {
    body.None? || |body.value| == 0
  }

  /** A body holding `type`, `category`, `amount` and `date`. */
  predicate HasTransactionFields(body: Body) {
    !Empty(body) && "type" in body.value && "category" in body.value && "amount" in body.value && "date" in body.value
  }

  /** A body holding `name` and `target_amount`. */
  predicate HasGoalFields(body: Body) {
    !Empty(body) && "name" in body.value && "target_amount" in body.value
  }

  /** True when `r` is a JSON reply with status `status`. */
  predicate IsStatus(r: Reply, status: nat) {
    r.Json? && r.status == status
  }

  // ---------------------------------------------------------------------
  // Transactions
  // ---------------------------------------------------------------------

  /** Every stored transaction has a positive amount. */
  predicate TransactionsValid(t: Table<Transaction>) {
    FreshIds(t) && forall id :: id in t.rows ==> t.rows[id].amount > 0.0
  }

  /** What POST /api/transactions accepts: the four fields, an amount that
      converts to a positive float, and a known type. */
  predicate TransactionAccepted(body: Body, parse: string -> Option<real>) {
    && HasTransactionFields(body)
    && ToFloat(body.value["amount"], parse).Float?
    && ToFloat(body.value["amount"], parse).x > 0.0
    && ParseKind(body.value["type"]).Some?
  }

  /** `add_transaction`. */
  function AddTransaction(t: Table<Transaction>, body: Body, parse: string -> Option<real>)
    : (res: (Reply, Table<Transaction>))
    requires FreshIds(t)
    ensures !HasTransactionFields(body) ==> res == (Error(400, "Missing required fields"), t)
    ensures HasTransactionFields(body) && ToFloat(body.value["amount"], parse).TypeErr? ==> res.0 == Crash
    ensures HasTransactionFields(body) && ToFloat(body.value["amount"], parse).ValueErr? ==>
      res.0 == Error(400, "Invalid amount format")
    ensures (HasTransactionFields(body) && ToFloat(body.value["amount"], parse).Float?
             && ToFloat(body.value["amount"], parse).x <= 0.0)
      ==> res.0 == Error(400, "Amount must be positive")
    ensures (HasTransactionFields(body) && ToFloat(body.value["amount"], parse).Float?
             && ToFloat(body.value["amount"], parse).x > 0.0 && ParseKind(body.value["type"]).None?)
      ==> res == (Error(400, "Invalid transaction type"), t)
    ensures IsStatus(res.0, 201) <==> TransactionAccepted(body, parse)
    ensures !IsStatus(res.0, 201) ==> res.1 == t
    ensures IsStatus(res.0, 201) ==>
      && t.nextId in res.1.rows
      && var d, row := body.value, res.1.rows[t.nextId];
      && res.1 == Append(t, row)
      && res.0.body == TransactionJson(t.nextId, row)
      && Str(KindName(row.kind)) == d["type"]
      && row.category == d["category"]
      && Float(row.amount) == ToFloat(d["amount"], parse)
      && row.date == d["date"]
      && row.description == (if "description" in d then d["description"] else Str(""))
  {
    if !HasTransactionFields(body) then (Error(400, "Missing required fields"), t)
    else
      var d := body.value;
      match ToFloat(d["amount"], parse)
      case TypeErr => (Crash, t)
      case ValueErr => (Error(400, "Invalid amount format"), t)
      case Float(amount) =>
        if amount <= 0.0 then (Error(400, "Amount must be positive"), t)
        else match ParseKind(d["type"])
          case None => (Error(400, "Invalid transaction type"), t)
          case Some(kind) =>
            var description := if "description" in d then d["description"] else Str("");
            var row := Transaction(kind, d["category"], amount, d["date"], description);
            (Json(201, TransactionJson(t.nextId, row)), Append(t, row))
  }

  /** The amount check of an update: absent, or a positive float. */
  predicate AmountAcceptable(d: map<string, Value>, parse: string -> Option<real>) {
    "amount" in d ==> ToFloat(d["amount"], parse).Float? && ToFloat(d["amount"], parse).x > 0.0
  }

  /** The type check of an update: absent, or a known type. */
  predicate KindAcceptable(d: map<string, Value>) {
    "type" in d ==> ParseKind(d["type"]).Some?
  }

  /** The merged row of an update: each field from the request when present, else the stored one. */
  function MergeTransaction(stored: Transaction, d: map<string, Value>, parse: string -> Option<real>): (m: Transaction)
    requires AmountAcceptable(d, parse) && KindAcceptable(d)
    ensures "type" in d ==> Str(KindName(m.kind)) == d["type"]
    ensures "type" !in d ==> m.kind == stored.kind
    ensures "category" in d ==> m.category == d["category"]
    ensures "category" !in d ==> m.category == stored.category
    ensures "amount" in d ==> Float(m.amount) == ToFloat(d["amount"], parse)
    ensures "amount" !in d ==> m.amount == stored.amount
    ensures "date" in d ==> m.date == d["date"]
    ensures "date" !in d ==> m.date == stored.date
    ensures "description" in d ==> m.description == d["description"]
    ensures "description" !in d ==> m.description == stored.description
  {
    Transaction(
      if "type" in d then ParseKind(d["type"]).value else stored.kind,
      if "category" in d then d["category"] else stored.category,
      if "amount" in d then ToFloat(d["amount"], parse).x else stored.amount,
      if "date" in d then d["date"] else stored.date,
      if "description" in d then d["description"] else stored.description)
  }

  /** `update_transaction`: amount and type are checked before the row is looked up. */
  function UpdateTransaction(t: Table<Transaction>, id: int, body: Body, parse: string -> Option<real>)
    : (res: (Reply, Table<Transaction>))
    ensures Empty(body) ==> res == (Error(400, "Missing data"), t)
    ensures !Empty(body) && "amount" in body.value && ToFloat(body.value["amount"], parse).ValueErr? ==>
      res.0 == Error(400, "Invalid amount format")
    ensures !Empty(body) && "amount" in body.value && ToFloat(body.value["amount"], parse).TypeErr? ==>
      res.0 == Crash
    ensures (!Empty(body) && "amount" in body.value && ToFloat(body.value["amount"], parse).Float?
             && ToFloat(body.value["amount"], parse).x <= 0.0)
      ==> res.0 == Error(400, "Amount must be positive")
    ensures !Empty(body) && AmountAcceptable(body.value, parse) && !KindAcceptable(body.value) ==>
      res.0 == Error(400, "Invalid transaction type")
    ensures !Empty(body) && AmountAcceptable(body.value, parse) && KindAcceptable(body.value) && id !in t.rows ==>
      res.0 == Error(404, "Transaction not found")
    ensures IsStatus(res.0, 200) <==>
      !Empty(body) && AmountAcceptable(body.value, parse) && KindAcceptable(body.value) && id in t.rows
    ensures IsStatus(res.0, 200) ==>
      var row := MergeTransaction(t.rows[id], body.value, parse);
      res == (Json(200, TransactionJson(id, row)), Table(t.rows[id := row], t.nextId))
    ensures !IsStatus(res.0, 200) ==> res.1 == t
  {
    if Empty(body) then (Error(400, "Missing data"), t)
    else
      var d := body.value;
      var amount := if "amount" in d then Some(ToFloat(d["amount"], parse)) else None;
      if amount == Some(TypeErr) then (Crash, t)
      else if amount == Some(ValueErr) then (Error(400, "Invalid amount format"), t)
      else if amount.Some? && amount.value.x <= 0.0 then (Error(400, "Amount must be positive"), t)
      else if !KindAcceptable(d) then (Error(400, "Invalid transaction type"), t)
      else if id !in t.rows then (Error(404, "Transaction not found"), t)
      else
        var row := MergeTransaction(t.rows[id], d, parse);
        (Json(200, TransactionJson(id, row)), Table(t.rows[id := row], t.nextId))
  }

  /** `delete_transaction`. */
  function DeleteTransaction(t: Table<Transaction>, id: int): (res: (Reply, Table<Transaction>))
    ensures id in t.rows <==> res.0 == Message("Transaction deleted successfully")
    ensures id in t.rows ==> res.1 == Table(t.rows - {id}, t.nextId)
    ensures id !in t.rows ==> res == (Error(404, "Transaction not found or could not be deleted"), t)
  {
    if id in t.rows then (Message("Transaction deleted successfully"), Table(t.rows - {id}, t.nextId))
    else (Error(404, "Transaction not found or could not be deleted"), t)
  }

  /** No handler can store a non-positive amount or reuse an id. */
  lemma TransactionsStayValid(t: Table<Transaction>, id: int, body: Body, parse: string -> Option<real>)
    requires TransactionsValid(t)
    ensures TransactionsValid(AddTransaction(t, body, parse).1)
    ensures TransactionsValid(UpdateTransaction(t, id, body, parse).1)
    ensures TransactionsValid(DeleteTransaction(t, id).1)
  {
    var u := UpdateTransaction(t, id, body, parse);
    if IsStatus(u.0, 200) {
      var row := MergeTransaction(t.rows[id], body.value, parse);
      assert u.1.rows[id] == row;
      if "amount" in body.value {
        assert ToFloat(body.value["amount"], parse) == Float(row.amount);
      }
    }
  }

  /** A malformed amount is reported as 400 even for an id that does not exist. */
  lemma TransactionAmountCheckedBeforeLookup(t: Table<Transaction>, id: int, body: Body, parse: string -> Option<real>)
    requires id !in t.rows
    requires !Empty(body) && "amount" in body.value && ToFloat(body.value["amount"], parse).Float?
    requires ToFloat(body.value["amount"], parse).x <= 0.0
    ensures UpdateTransaction(t, id, body, parse).0 == Error(400, "Amount must be positive")
  {
  }

  // ---------------------------------------------------------------------
  // Goals
  // ---------------------------------------------------------------------

  /** Every stored goal has a positive target and a non-negative current amount. */
  predicate GoalsValid(g: Table<Goal>) {
    FreshIds(g) && forall id :: id in g.rows ==> g.rows[id].target > 0.0 && g.rows[id].current >= 0.0
  }

  /** The amount checks shared by goal creation and update, in their order:
      both conversions first, then target > 0, then current >= 0. */
  function CheckGoalAmounts(target: PyFloat, current: PyFloat): (r: Option<Reply>)
    ensures r.None? <==> target.Float? && current.Float? && target.x > 0.0 && current.x >= 0.0
    ensures target.TypeErr? ==> r == Some(Crash)
    ensures target.ValueErr? ==> r == Some(Error(400, "Invalid amount format"))
    ensures target.Float? && current.TypeErr? ==> r == Some(Crash)
    ensures target.Float? && current.ValueErr? ==> r == Some(Error(400, "Invalid amount format"))
    ensures target.Float? && current.Float? && target.x <= 0.0 ==> r == Some(Error(400, "Target amount must be positive"))
    ensures target.Float? && current.Float? && target.x > 0.0 && current.x < 0.0 ==>
      r == Some(Error(400, "Current amount cannot be negative"))
  {
    if target.TypeErr? then Some(Crash)
    else if target.ValueErr? then Some(Error(400, "Invalid amount format"))
    else if current.TypeErr? then Some(Crash)
    else if current.ValueErr? then Some(Error(400, "Invalid amount format"))
    else if target.x <= 0.0 then Some(Error(400, "Target amount must be positive"))
    else if current.x < 0.0 then Some(Error(400, "Current amount cannot be negative"))
    else None
  }

  /** `add_goal`: `current_amount` defaults to 0 and `deadline` to null. */
  function AddGoal(g: Table<Goal>, body: Body, parse: string -> Option<real>): (res: (Reply, Table<Goal>))
    requires FreshIds(g)
    ensures !HasGoalFields(body) ==> res == (Error(400, "Missing required fields: name, target_amount"), g)
    ensures !IsStatus(res.0, 201) ==> res.1 == g
    ensures IsStatus(res.0, 201) <==>
      HasGoalFields(body)
      && CheckGoalAmounts(ToFloat(body.value["target_amount"], parse),
           if "current_amount" in body.value then ToFloat(body.value["current_amount"], parse) else Float(0.0)).None?
    ensures HasGoalFields(body) ==>
      var check := CheckGoalAmounts(ToFloat(body.value["target_amount"], parse),
        if "current_amount" in body.value then ToFloat(body.value["current_amount"], parse) else Float(0.0));
      check.Some? ==> res.0 == check.value
    ensures IsStatus(res.0, 201) ==>
      && g.nextId in res.1.rows
      && var d, row := body.value, res.1.rows[g.nextId];
      && res.1 == Append(g, row)
      && res.0.body == GoalJson(g.nextId, row)
      && row.name == d["name"]
      && Float(row.target) == ToFloat(d["target_amount"], parse)
      && ("current_amount" !in d ==> row.current == 0.0)
      && ("current_amount" in d ==> Float(row.current) == ToFloat(d["current_amount"], parse))
      && row.deadline == (if "deadline" in d then d["deadline"] else Null)
  {
    if !HasGoalFields(body) then (Error(400, "Missing required fields: name, target_amount"), g)
    else
      var d := body.value;
      var target := ToFloat(d["target_amount"], parse);
      var current := if "current_amount" in d then ToFloat(d["current_amount"], parse) else Float(0.0);
      match CheckGoalAmounts(target, current)
      case Some(reply) => (reply, g)
      case None =>
        var row := Goal(d["name"], target.x, current.x, if "deadline" in d then d["deadline"] else Null);
        (Json(201, GoalJson(g.nextId, row)), Append(g, row))
  }

  /** The amount checks of `update_goal`, each amount taken from the request
      when present and from the stored goal otherwise. */
  function MergedGoalCheck(stored: Goal, d: map<string, Value>, parse: string -> Option<real>): Option<Reply> {
    CheckGoalAmounts(
      if "target_amount" in d then ToFloat(d["target_amount"], parse) else Float(stored.target),
      if "current_amount" in d then ToFloat(d["current_amount"], parse) else Float(stored.current))
  }

  /** `update_goal`: the row is looked up first, then each amount comes from
      the request when present and from the row otherwise. */
  function UpdateGoal(g: Table<Goal>, id: int, body: Body, parse: string -> Option<real>): (res: (Reply, Table<Goal>))
    ensures Empty(body) ==> res == (Error(400, "Missing data"), g)
    ensures !Empty(body) && id !in g.rows ==> res == (Error(404, "Goal not found"), g)
    ensures !IsStatus(res.0, 200) ==> res.1 == g
    ensures IsStatus(res.0, 200) <==> !Empty(body) && id in g.rows && MergedGoalCheck(g.rows[id], body.value, parse).None?
    ensures !Empty(body) && id in g.rows && MergedGoalCheck(g.rows[id], body.value, parse).Some? ==>
      res.0 == MergedGoalCheck(g.rows[id], body.value, parse).value
    ensures IsStatus(res.0, 200) ==>
      && !Empty(body) && id in g.rows && id in res.1.rows
      && var d, stored, row := body.value, g.rows[id], res.1.rows[id];
      && res == (Json(200, GoalJson(id, row)), Table(g.rows[id := row], g.nextId))
      && row.name == (if "name" in d then d["name"] else stored.name)
      && (if "target_amount" in d then Float(row.target) == ToFloat(d["target_amount"], parse) else row.target == stored.target)
      && (if "current_amount" in d then Float(row.current) == ToFloat(d["current_amount"], parse) else row.current == stored.current)
      && row.deadline == (if "deadline" in d then d["deadline"] else stored.deadline)
  {
    if Empty(body) then (Error(400, "Missing data"), g)
    else if id !in g.rows then (Error(404, "Goal not found"), g)
    else
      var d, stored := body.value, g.rows[id];
      var target := if "target_amount" in d then ToFloat(d["target_amount"], parse) else Float(stored.target);
      var current := if "current_amount" in d then ToFloat(d["current_amount"], parse) else Float(stored.current);
      match MergedGoalCheck(stored, d, parse)
      case Some(reply) => (reply, g)
      case None =>
        var row := Goal(if "name" in d then d["name"] else stored.name, target.x, current.x,
                        if "deadline" in d then d["deadline"] else stored.deadline);
        (Json(200, GoalJson(id, row)), Table(g.rows[id := row], g.nextId))
  }

  /** `delete_goal`. */
  function DeleteGoal(g: Table<Goal>, id: int): (res: (Reply, Table<Goal>))
    ensures id in g.rows <==> res.0 == Message("Goal deleted successfully")
    ensures id in g.rows ==> res.1 == Table(g.rows - {id}, g.nextId)
    ensures id !in g.rows ==> res == (Error(404, "Goal not found or could not be deleted"), g)
  {
    if id in g.rows then (Message("Goal deleted successfully"), Table(g.rows - {id}, g.nextId))
    else (Error(404, "Goal not found or could not be deleted"), g)
  }

  /** No handler can store a non-positive target, a negative current amount, or reuse an id. */
  lemma GoalsStayValid(g: Table<Goal>, id: int, body: Body, parse: string -> Option<real>)
    requires GoalsValid(g)
    ensures GoalsValid(AddGoal(g, body, parse).1)
    ensures GoalsValid(UpdateGoal(g, id, body, parse).1)
    ensures GoalsValid(DeleteGoal(g, id).1)
  {
  }

  /** Unlike transactions, a goal update on a missing id is 404 whatever the amounts say. */
  lemma GoalLookupBeforeAmountCheck(g: Table<Goal>, id: int, body: Body, parse: string -> Option<real>)
    requires id !in g.rows && !Empty(body)
    requires "target_amount" in body.value && ToFloat(body.value["target_amount"], parse) == Float(-1.0)
    ensures UpdateGoal(g, id, body, parse).0 == Error(404, "Goal not found")
  {
  }
}

=== FILE: summary.dfy ===
/** `get_dashboard_data` of app.py: totals, balance, spending per expense
    category sorted by amount, the first five listed transactions, and the
    JSON payload it sends. The listings are inputs: they are the rows in the
    order the SQL queries return them. */
module Summary {
  import opened Wrappers
  import opened Js
  import opened Records
  import Ordering

  /** A listed transaction: its id and its row. */
  type Row = (int, Transaction)
  /** A `spending_by_category` item: category and amount. */
  type Entry = (Value, real)

  /** How many transactions the dashboard lists as recent. */
  const RecentCount: nat := 5

  function IncomeTotal(txs: seq<Row>): real {
    if |txs| == 0 then 0.0
    else IncomeTotal(txs[..|txs| - 1]) + (if txs[|txs| - 1].1.kind == Income then txs[|txs| - 1].1.amount else 0.0)
  }

  function ExpenseTotal(txs: seq<Row>): real {
    if |txs| == 0 then 0.0
    else ExpenseTotal(txs[..|txs| - 1]) + (if txs[|txs| - 1].1.kind == Expense then txs[|txs| - 1].1.amount else 0.0)
  }

  /** Every listed amount, whatever its type. */
  function AmountTotal(txs: seq<Row>): real {
    if |txs| == 0 then 0.0 else AmountTotal(txs[..|txs| - 1]) + txs[|txs| - 1].1.amount
  }

  /** The expense amounts in category `c`. */
  function CategoryTotal(txs: seq<Row>, c: Value): real {
    if |txs| == 0 then 0.0
    else
      var t := txs[|txs| - 1].1;
      CategoryTotal(txs[..|txs| - 1], c) + (if t.kind == Expense && t.category == c then t.amount else 0.0)
  }

  /** Some expense is in category `c`. */
  predicate SpentOn(txs: seq<Row>, c: Value) {
    exists i :: 0 <= i < |txs| && txs[i].1.kind == Expense && txs[i].1.category == c
  }

  function Sum(es: seq<Entry>): real {
    if |es| == 0 then 0.0 else Sum(es[..|es| - 1]) + es[|es| - 1].1
  }

  function Keys(es: seq<Entry>): set<Value> {
    set i | 0 <= i < |es| :: es[i].0
  }

  predicate DistinctKeys(es: seq<Entry>) {
    forall i, j :: 0 <= i < j < |es| ==> es[i].0 != es[j].0
  }

  /** The position of category `c`, if it has one. */
  function KeyIndex(es: seq<Entry>, c: Value): (r: Option<nat>)
    ensures r.Some? ==> r.value < |es| && es[r.value].0 == c
    ensures r.None? ==> c !in Keys(es)
  {
    if |es| == 0 then None
    else if es[|es| - 1].0 == c then Some(|es| - 1)
    else KeyIndex(es[..|es| - 1], c)
  }

  /** One turn of the accumulation loop: an expense adds its amount to its
      category, which is appended the first time it is seen. */
  function AddExpense(acc: seq<Entry>, t: Transaction): seq<Entry> {
    if t.kind != Expense then acc
    else match KeyIndex(acc, t.category)
      case Some(i) => acc[i := (acc[i].0, acc[i].1 + t.amount)]
      case None => acc + [(t.category, t.amount)]
  }

  /** The `spending_by_category` dict before sorting, in insertion order. */
  function Accumulate(txs: seq<Row>): seq<Entry> {
    if |txs| == 0 then [] else AddExpense(Accumulate(txs[..|txs| - 1]), txs[|txs| - 1].1)
  }

  function AmountKey(e: Entry): Option<real> {
    Some(e.1)
  }

  /** `dict(sorted(items, key=amount, reverse=True))`. */
  function Spending(txs: seq<Row>): seq<Entry> {
    Ordering.SortDesc(AmountKey, Accumulate(txs))
  }

  /** What the dashboard endpoint computes. */
  datatype Dashboard = Dashboard(
    totalIncome: real, totalExpenses: real, balance: real,
    spending: seq<Entry>, recent: seq<Row>, goals: seq<(int, Goal)>)

  function Min(a: nat, b: nat): nat {
    if a <= b then a else b
  }

  /** `get_dashboard_data` over the two listings. */
  function BuildDashboard(txs: seq<Row>, goals: seq<(int, Goal)>): (d: Dashboard)
    ensures d.totalIncome == IncomeTotal(txs) && d.totalExpenses == ExpenseTotal(txs)
    ensures d.spending == Spending(txs)
    ensures d.balance == d.totalIncome - d.totalExpenses
    ensures d.totalIncome + d.totalExpenses == AmountTotal(txs)
    ensures d.recent <= txs && |d.recent| == Min(RecentCount, |txs|)
    ensures d.goals == goals
  {
    TotalsPartition(txs);
    var income, expenses := IncomeTotal(txs), ExpenseTotal(txs);
    Dashboard(income, expenses, income - expenses, Spending(txs), txs[..Min(RecentCount, |txs|)], goals)
  }

  /** Every transaction is counted once, as income or as expense. */
  lemma {:induction false} TotalsPartition(txs: seq<Row>)
    ensures IncomeTotal(txs) + ExpenseTotal(txs) == AmountTotal(txs)
  {
    if |txs| > 0 {
      TotalsPartition(txs[..|txs| - 1]);
    }
  }

  lemma {:induction false} NotSpentIsZero(txs: seq<Row>, c: Value)
    requires !SpentOn(txs, c)
    ensures CategoryTotal(txs, c) == 0.0
  {
    if |txs| > 0 {
      SpentOnAppend(txs);
      NotSpentIsZero(txs[..|txs| - 1], c);
    }
  }

  /** The last transaction adds its category to those spent on, if it is an
      expense. */
  lemma SpentOnAppend(txs: seq<Row>)
    requires |txs| > 0
    ensures forall c :: SpentOn(txs, c) <==>
      SpentOn(txs[..|txs| - 1], c) || (txs[|txs| - 1].1.kind == Expense && txs[|txs| - 1].1.category == c)
  {
    var init, t := txs[..|txs| - 1], txs[|txs| - 1].1;
    forall c ensures SpentOn(txs, c) <==> SpentOn(init, c) || (t.kind == Expense && t.category == c) {
      if SpentOn(init, c) {
        var i :| 0 <= i < |init| && init[i].1.kind == Expense && init[i].1.category == c;
        assert txs[i] == init[i];
      }
      if SpentOn(txs, c) {
        var i :| 0 <= i < |txs| && txs[i].1.kind == Expense && txs[i].1.category == c;
        if i < |init| {
          assert init[i] == txs[i];
        }
      }
    }
  }

  lemma {:induction false} SumUpdate(es: seq<Entry>, i: nat, a: real)
    requires i < |es|
    ensures Sum(es[i := (es[i].0, es[i].1 + a)]) == Sum(es) + a
  {
    var u := es[i := (es[i].0, es[i].1 + a)];
    if i < |es| - 1 {
      assert u[..|u| - 1] == es[..|es| - 1][i := (es[i].0, es[i].1 + a)];
      SumUpdate(es[..|es| - 1], i, a);
    } else {
      assert u[..|u| - 1] == es[..|es| - 1];
    }
  }

  lemma {:induction false} SumConcat(a: seq<Entry>, b: seq<Entry>)
    ensures Sum(a + b) == Sum(a) + Sum(b)
  {
    if |b| > 0 {
      assert (a + b)[..|a + b| - 1] == a + b[..|b| - 1];
      SumConcat(a, b[..|b| - 1]);
    } else {
      assert a + b == a;
    }
  }

  /** What the accumulation keeps true after every transaction. */
  ghost predicate AccumulatedOk(txs: seq<Row>, acc: seq<Entry>) {
    && DistinctKeys(acc)
    && (forall i :: 0 <= i < |acc| ==> acc[i].1 == CategoryTotal(txs, acc[i].0))
    && (forall c :: c in Keys(acc) <==> SpentOn(txs, c))
    && Sum(acc) == ExpenseTotal(txs)
  }

  lemma {:induction false} AccumulateOk(txs: seq<Row>)
    ensures AccumulatedOk(txs, Accumulate(txs))
  {
    if |txs| > 0 {
      var init, t := txs[..|txs| - 1], txs[|txs| - 1].1;
      var acc := Accumulate(init);
      AccumulateOk(init);
      if t.kind == Expense {
        match KeyIndex(acc, t.category)
        case Some(i) =>
          assert Accumulate(txs) == acc[i := (acc[i].0, acc[i].1 + t.amount)];
          AddToKnown(txs, acc, i);
        case None =>
          assert Accumulate(txs) == acc + [(t.category, t.amount)];
          AddNewCategory(txs, acc);
      } else {
        assert Accumulate(txs) == acc;
        OtherKindKeeps(txs, acc);
      }
    }
  }

  /** An income leaves every category as it was. */
  lemma OtherKindKeeps(txs: seq<Row>, acc: seq<Entry>)
    requires |txs| > 0 && txs[|txs| - 1].1.kind != Expense
    requires AccumulatedOk(txs[..|txs| - 1], acc)
    ensures AccumulatedOk(txs, acc)
  {
    SpentOnAppend(txs);
  }

  /** An expense in a category already seen adds to that category's entry. */
  lemma AddToKnown(txs: seq<Row>, acc: seq<Entry>, i: nat)
    requires |txs| > 0 && txs[|txs| - 1].1.kind == Expense
    requires AccumulatedOk(txs[..|txs| - 1], acc)
    requires i < |acc| && acc[i].0 == txs[|txs| - 1].1.category
    ensures AccumulatedOk(txs, acc[i := (acc[i].0, acc[i].1 + txs[|txs| - 1].1.amount)])
  {
    var t := txs[|txs| - 1].1;
    var acc' := acc[i := (acc[i].0, acc[i].1 + t.amount)];
    KeysUpdate(acc, i, acc[i].1 + t.amount);
    KnownTotals(txs, acc, i);
    assert Sum(acc') == ExpenseTotal(txs) by {
      SumUpdate(acc, i, t.amount);
    }
    assert forall c :: c in Keys(acc') <==> SpentOn(txs, c) by {
      SpentOnAppend(txs);
      assert t.category in Keys(acc);
    }
  }

  lemma KeysUpdate(es: seq<Entry>, i: nat, v: real)
    requires i < |es|
    ensures Keys(es[i := (es[i].0, v)]) == Keys(es)
    ensures DistinctKeys(es) ==> DistinctKeys(es[i := (es[i].0, v)])
  {
    var u := es[i := (es[i].0, v)];
    forall c ensures c in Keys(u) <==> c in Keys(es) {
      if c in Keys(es) {
        var j :| 0 <= j < |es| && es[j].0 == c;
        assert u[j].0 == c;
      }
      if c in Keys(u) {
        var j :| 0 <= j < |u| && u[j].0 == c;
        assert es[j].0 == c;
      }
    }
  }

  lemma KnownTotals(txs: seq<Row>, acc: seq<Entry>, i: nat)
    requires |txs| > 0 && txs[|txs| - 1].1.kind == Expense
    requires AccumulatedOk(txs[..|txs| - 1], acc)
    requires i < |acc| && acc[i].0 == txs[|txs| - 1].1.category
    ensures var acc' := acc[i := (acc[i].0, acc[i].1 + txs[|txs| - 1].1.amount)];
      forall j :: 0 <= j < |acc'| ==> acc'[j].1 == CategoryTotal(txs, acc'[j].0)
  {
    var t := txs[|txs| - 1].1;
    var acc' := acc[i := (acc[i].0, acc[i].1 + t.amount)];
    forall j | 0 <= j < |acc'| ensures acc'[j].1 == CategoryTotal(txs, acc'[j].0) {
      if j != i {
        assert acc[j].0 != acc[i].0;
        assert acc'[j] == acc[j];
      }
    }
  }

  /** An expense in a new category appends an entry holding its amount. */
  lemma AddNewCategory(txs: seq<Row>, acc: seq<Entry>)
    requires |txs| > 0 && txs[|txs| - 1].1.kind == Expense
    requires AccumulatedOk(txs[..|txs| - 1], acc)
    requires txs[|txs| - 1].1.category !in Keys(acc)
    ensures AccumulatedOk(txs, acc + [(txs[|txs| - 1].1.category, txs[|txs| - 1].1.amount)])
  {
    var init, t := txs[..|txs| - 1], txs[|txs| - 1].1;
    var acc' := acc + [(t.category, t.amount)];
    SpentOnAppend(txs);
    assert !SpentOn(init, t.category);
    NotSpentIsZero(init, t.category);
    assert acc'[..|acc'| - 1] == acc;
    forall c ensures c in Keys(acc') <==> c in Keys(acc) || c == t.category {
      if c in Keys(acc) {
        var j :| 0 <= j < |acc| && acc[j].0 == c;
        assert acc'[j].0 == c;
      }
      if c == t.category {
        assert acc'[|acc|].0 == c;
      }
      if c in Keys(acc') {
        var j :| 0 <= j < |acc'| && acc'[j].0 == c;
        if j < |acc| {
          assert acc[j].0 == c;
        }
      }
    }
    forall j | 0 <= j < |acc'| ensures acc'[j].1 == CategoryTotal(txs, acc'[j].0) {
      if j < |acc| {
        assert acc'[j] == acc[j];
      }
    }
  }

  lemma DistinctInsertAt(a: seq<Entry>, k: nat, x: Entry)
    requires k <= |a| && DistinctKeys(a) && x.0 !in Keys(a)
    ensures DistinctKeys(a[..k] + [x] + a[k..])
  {
    var r := a[..k] + [x] + a[k..];
    forall i, j | 0 <= i < j < |r| ensures r[i].0 != r[j].0 {
      if i < k && j == k {
        assert r[i] == a[i];
      } else if i == k {
        assert r[j] == a[j - 1];
      } else if j < k {
        assert r[i] == a[i] && r[j] == a[j];
      } else if i < k {
        assert r[i] == a[i] && r[j] == a[j - 1];
      } else {
        assert r[i] == a[i - 1] && r[j] == a[j - 1];
      }
    }
  }

  lemma KeysOfPermutation(a: seq<Entry>, b: seq<Entry>)
    requires multiset(a) == multiset(b)
    ensures Keys(a) == Keys(b)
  {
    forall c | c in Keys(a) ensures c in Keys(b) {
      var i :| 0 <= i < |a| && a[i].0 == c;
      assert a[i] in multiset(b);
      var j :| 0 <= j < |b| && b[j] == a[i];
    }
    forall c | c in Keys(b) ensures c in Keys(a) {
      var i :| 0 <= i < |b| && b[i].0 == c;
      assert b[i] in multiset(a);
      var j :| 0 <= j < |a| && a[j] == b[i];
    }
  }

  /** Sorting keeps the categories distinct and the total unchanged. */
  lemma SumInsertAt(a: seq<Entry>, k: nat, x: Entry)
    requires k <= |a|
    ensures Sum(a[..k] + [x] + a[k..]) == Sum(a) + x.1
  {
    assert a == a[..k] + a[k..];
    SumConcat(a[..k], a[k..]);
    SumConcat(a[..k] + [x], a[k..]);
    SumConcat(a[..k], [x]);
    assert Sum([x]) == x.1 by {
      assert [x][..0] == [];
    }
  }

  /** Sorting keeps the categories distinct. */
  lemma {:induction false} SortKeepsDistinct(es: seq<Entry>)
    requires DistinctKeys(es)
    ensures DistinctKeys(Ordering.SortDesc(AmountKey, es))
  {
    if |es| > 0 {
      var init, x := es[..|es| - 1], es[|es| - 1];
      var sorted := Ordering.SortDesc(AmountKey, init);
      SortKeepsDistinct(init);
      Ordering.SortPermutes(AmountKey, init);
      KeysOfPermutation(sorted, init);
      assert x.0 !in Keys(init) by {
        forall i | 0 <= i < |init| ensures init[i].0 != x.0 {
          assert init[i] == es[i];
        }
      }
      var k := Ordering.InsertPos(AmountKey, x, sorted);
      DistinctInsertAt(sorted, k, x);
    }
  }

  /** Sorting keeps the total. */
  lemma {:induction false} SortKeepsSum(es: seq<Entry>)
    ensures Sum(Ordering.SortDesc(AmountKey, es)) == Sum(es)
  {
    if |es| > 0 {
      var init, x := es[..|es| - 1], es[|es| - 1];
      var sorted := Ordering.SortDesc(AmountKey, init);
      SortKeepsSum(init);
      var k := Ordering.InsertPos(AmountKey, x, sorted);
      SumInsertAt(sorted, k, x);
    }
  }

  /** `spending_by_category`: one entry per expense category, holding that
      category's expense total; the amounts add up to `total_expenses`; the
      entries are in non-increasing order of amount. */
  lemma SpendingCorrect(txs: seq<Row>)
    ensures DistinctKeys(Spending(txs))
    ensures forall i :: 0 <= i < |Spending(txs)| ==> Spending(txs)[i].1 == CategoryTotal(txs, Spending(txs)[i].0)
    ensures forall c :: c in Keys(Spending(txs)) <==> SpentOn(txs, c)
    ensures Sum(Spending(txs)) == ExpenseTotal(txs)
    ensures Ordering.Descending(AmountKey, Spending(txs))
  {
    var acc := Accumulate(txs);
    AccumulateOk(txs);
    SortKeepsDistinct(acc);
    SortKeepsSum(acc);
    Ordering.SortPermutes(AmountKey, acc);
    Ordering.SortIsDescending(AmountKey, acc);
    KeysOfPermutation(Spending(txs), acc);
    forall i | 0 <= i < |Spending(txs)| ensures Spending(txs)[i].1 == CategoryTotal(txs, Spending(txs)[i].0) {
      var e := Spending(txs)[i];
      assert e in multiset(acc);
      var j :| 0 <= j < |acc| && acc[j] == e;
    }
  }

  function RowsJson(rows: seq<Row>): (r: seq<Value>)
    ensures |r| == |rows|
    ensures forall i :: 0 <= i < |rows| ==> r[i] == TransactionJson(rows[i].0, rows[i].1)
  {
    if |rows| == 0 then [] else RowsJson(rows[..|rows| - 1]) + [TransactionJson(rows[|rows| - 1].0, rows[|rows| - 1].1)]
  }

  function GoalsJson(goals: seq<(int, Goal)>): (r: seq<Value>)
    ensures |r| == |goals|
    ensures forall i :: 0 <= i < |goals| ==> r[i] == GoalJson(goals[i].0, goals[i].1)
  {
    if |goals| == 0 then [] else GoalsJson(goals[..|goals| - 1]) + [GoalJson(goals[|goals| - 1].0, goals[|goals| - 1].1)]
  }

  /** The spending entries as object members, in their sorted order. */
  function SpendingJson(es: seq<Entry>, keyText: Value -> string): (r: seq<(string, Value)>)
    ensures |r| == |es|
    ensures forall i :: 0 <= i < |es| ==> r[i] == (keyText(es[i].0), Num(es[i].1))
  {
    if |es| == 0 then [] else SpendingJson(es[..|es| - 1], keyText) + [(keyText(es[|es| - 1].0), Num(es[|es| - 1].1))]
  }

  /** The members of the endpoint's object, in the order app.py builds them. */
  function PayloadFields(income: Value, expenses: Value, balance: Value, spending: Value, recent: Value, goals: Value): seq<(string, Value)> {
    [("total_income", income), ("total_expenses", expenses), ("balance", balance),
     ("spending_by_category", spending), ("recent_transactions", recent), ("goals_summary", goals)]
  }

  lemma PayloadKeys(income: Value, expenses: Value, balance: Value, spending: Value, recent: Value, goals: Value)
    ensures var fields := PayloadFields(income, expenses, balance, spending, recent, goals);
      && Lookup(fields, "total_income") == income
      && Lookup(fields, "total_expenses") == expenses
      && Lookup(fields, "balance") == balance
      && Lookup(fields, "spending_by_category") == spending
      && Lookup(fields, "recent_transactions") == recent
      && Lookup(fields, "goals_summary") == goals
  {
    var fields := PayloadFields(income, expenses, balance, spending, recent, goals);
    // The six keys have six different lengths.
    assert |fields[0].0| == 12 && |fields[1].0| == 14 && |fields[2].0| == 7;
    assert |fields[3].0| == 20 && |fields[4].0| == 19 && |fields[5].0| == 13;
    LookupAt(fields, 0, "total_income");
    LookupAt(fields, 1, "total_expenses");
    LookupAt(fields, 2, "balance");
    LookupAt(fields, 3, "spending_by_category");
    LookupAt(fields, 4, "recent_transactions");
    LookupAt(fields, 5, "goals_summary");
  }

  /** The payload has no member named `net_balance` or `goal_summary`. */
  lemma PayloadLacks(income: Value, expenses: Value, balance: Value, spending: Value, recent: Value, goals: Value)
    ensures var fields := PayloadFields(income, expenses, balance, spending, recent, goals);
      Lookup(fields, "net_balance") == Undefined && Lookup(fields, "goal_summary") == Undefined
  {
    var fields := PayloadFields(income, expenses, balance, spending, recent, goals);
    forall i | 0 <= i < |fields| ensures fields[i].0 != "net_balance" && fields[i].0 != "goal_summary" {
      assert |fields[i].0| != 11;
      assert |fields[i].0| != 12 || fields[i].0[0] == 't';
    }
  }

  /** The JSON object the endpoint returns. `keyText` is how a category
      becomes an object key. */
  function Payload(d: Dashboard, keyText: Value -> string): (p: Value)
    ensures p.Obj?
    ensures Lookup(p.fields, "balance") == Num(d.balance)
    ensures Lookup(p.fields, "total_income") == Num(d.totalIncome)
    ensures Lookup(p.fields, "total_expenses") == Num(d.totalExpenses)
    ensures Lookup(p.fields, "spending_by_category") == Obj(SpendingJson(d.spending, keyText))
    ensures Lookup(p.fields, "recent_transactions") == Arr(RowsJson(d.recent))
    ensures Lookup(p.fields, "goals_summary") == Arr(GoalsJson(d.goals))
    ensures Lookup(p.fields, "net_balance") == Undefined
    ensures Lookup(p.fields, "goal_summary") == Undefined
  {
    var income, expenses, balance := Num(d.totalIncome), Num(d.totalExpenses), Num(d.balance);
    var spending, recent, goals := Obj(SpendingJson(d.spending, keyText)), Arr(RowsJson(d.recent)), Arr(GoalsJson(d.goals));
    PayloadKeys(income, expenses, balance, spending, recent, goals);
    PayloadLacks(income, expenses, balance, spending, recent, goals);
    Obj(PayloadFields(income, expenses, balance, spending, recent, goals))
  }
}

=== FILE: text.dfy ===
/** String helpers the page scripts rely on: `split(c)[0]`, `includes`,
    ASCII upper-casing and decimal rendering of status codes. */
module Text {

  /** Index of the first `c` in `s`, or `|s|` when `s` has none. */
  function IndexOf(s: string, c: char): (i: nat)
    ensures i <= |s|
    ensures i < |s| ==> s[i] == c
    ensures forall j :: 0 <= j < i ==> s[j] != c
  {
    if |s| == 0 then 0
    else if s[0] == c then 0
    else 1 + IndexOf(s[1..], c)
  }

  /** JavaScript `s.split(c)[0]`: the part of `s` before its first `c`. */
  function BeforeFirst(s: string, c: char): (r: string)
    ensures r <= s
    ensures c !in r
    ensures |r| < |s| ==> s[|r|] == c
    ensures c !in s ==> r == s
  {
    s[..IndexOf(s, c)]
  }

  /** `s` starts with `p`. */
  predicate StartsWith(s: string, p: string) {
    |p| <= |s| && s[..|p|] == p
  }

  /** JavaScript `s.includes(sub)`, searched left to right. */
  function Includes(s: string, sub: string): bool
    decreases |s|
  {
    StartsWith(s, sub) || (|s| > 0 && Includes(s[1..], sub))
  }

  /** `sub` occurs in `s` starting at offset `i`. */
  predicate OccursAt(s: string, sub: string, i: int) {
    0 <= i <= |s| - |sub| && s[i..i + |sub|] == sub
  }

  /** An occurrence in the tail is an occurrence one place further on. */
  lemma OccursShift(s: string, sub: string, i: nat)
    requires |s| > 0
    ensures OccursAt(s[1..], sub, i) <==> OccursAt(s, sub, i + 1)
  {
    if i + 1 <= |s| - |sub| {
      assert s[i + 1..i + 1 + |sub|] == s[1..][i..i + |sub|];
    }
  }

  /** `Includes` finds exactly the occurrences at some offset. */
  lemma {:induction false} IncludesIsOccurrence(s: string, sub: string)
    ensures Includes(s, sub) <==> exists i :: OccursAt(s, sub, i)
    decreases |s|
  {
    if StartsWith(s, sub) {
      assert OccursAt(s, sub, 0);
    } else if |s| == 0 {
      assert |sub| > 0;
    } else {
      IncludesIsOccurrence(s[1..], sub);
      if Includes(s[1..], sub) {
        var i :| OccursAt(s[1..], sub, i);
        OccursShift(s, sub, i);
      } else {
        forall i ensures !OccursAt(s, sub, i) {
          if 0 < i {
            OccursShift(s, sub, i - 1);
          }
        }
      }
    }
  }


  /** Upper-case an ASCII letter; every other character is kept. */
  function UpperChar(c: char): char {
    if 'a' <= c <= 'z' then (c as int - 'a' as int + 'A' as int) as char else c
  }

  /** JavaScript `toUpperCase` restricted to ASCII letters. */
  function Upper(s: string): (r: string)
    ensures |r| == |s|
    ensures forall i :: 0 <= i < |s| ==> r[i] == UpperChar(s[i])
  {
    seq(|s|, i requires 0 <= i < |s| => UpperChar(s[i]))
  }

  /** `a` and `b` are equal up to the case of ASCII letters. */
  predicate SameIgnoringCase(a: string, b: string) {
    |a| == |b| && forall i :: 0 <= i < |a| ==> UpperChar(a[i]) == UpperChar(b[i])
  }

  /** Comparing upper-cased text against an upper-case constant is case-insensitive equality. */
  lemma UpperMatchesIgnoringCase(s: string, t: string)
    requires Upper(t) == t
    ensures Upper(s) == t <==> SameIgnoringCase(s, t)
  {
    if SameIgnoringCase(s, t) {
      forall i | 0 <= i < |s| ensures Upper(s)[i] == t[i] {
        assert UpperChar(t[i]) == Upper(t)[i];
      }
    }
    if Upper(s) == t {
      forall i | 0 <= i < |s| ensures UpperChar(s[i]) == UpperChar(t[i]) {
        assert Upper(t)[i] == UpperChar(t[i]);
      }
    }
  }

  /** The character of one decimal digit. */
  function DigitChar(d: nat): char
    requires d < 10
  {
    ('0' as int + d) as char
  }

  /** Decimal rendering of a natural number, as `${n}` produces it. */
  function NatText(n: nat): (r: string)
    ensures |r| > 0
    ensures forall i :: 0 <= i < |r| ==> '0' <= r[i] <= '9'
  {
    if n < 10 then [DigitChar(n)] else NatText(n / 10) + [DigitChar(n % 10)]
  }

  /** The number a string of decimal digits denotes. */
  function DigitsValue(s: string): nat
    requires forall i :: 0 <= i < |s| ==> '0' <= s[i] <= '9'
  {
    if |s| == 0 then 0 else 10 * DigitsValue(s[..|s| - 1]) + (s[|s| - 1] as int - '0' as int)
  }

  /** Reading the rendered digits back gives the number: the rendering loses nothing. */
  lemma {:induction false} NatTextRoundTrip(n: nat)
    ensures DigitsValue(NatText(n)) == n
  {
    if n >= 10 {
      NatTextRoundTrip(n / 10);
      var r := NatText(n);
      assert r[..|r| - 1] == NatText(n / 10);
    }
  }
}

=== FILE: transactions_page.dfy ===
/** transactions_page.js: the add and edit forms, the table load with its
    date ordering, the edit modal, and deletion. */
module TransactionsPage {
  import opened Wrappers
  import opened Js
  import Text
  import N = Notifications
  import ApiClient
  import Ordering
  import opened Page

  const ListUrl: string := "/api/transactions"
  const InvalidAdd: string := "Type, category, date, and a valid positive amount are required."
  const InvalidEdit: string := "Type, category, date, and a valid positive amount are required for update."
  const AddedText: string := "Transaction added successfully!"
  const AddFailed: string := "Failed to add transaction. Please try again."
  const UpdatedText: string := "Transaction updated successfully!"
  const UpdateFailed: string := "Failed to update transaction. Please try again."
  const DeleteFailed: string := "Failed to delete transaction. Please try again."

  /** The form's values as `formData.get` returns them (a string, or null
      for a missing field), with the amount already through `parseFloat`
      (None is NaN). */
  datatype Form = Form(kind: Value, category: Value, amount: Option<real>, date: Value, description: Value)

  /** The check both forms run before sending anything. */
  predicate Valid(f: Form) {
    && Truthy(f.kind) && Truthy(f.category) && Truthy(f.date)
    && f.amount.Some? && f.amount.value > 0.0
  }

  /** The object both forms send. */
  function Payload(f: Form): (v: Value)
    ensures v.Obj? && |v.fields| == 5
    ensures Valid(f) ==> v.fields[2] == ("amount", Num(f.amount.value))
  {
    Obj([("type", f.kind), ("category", f.category), ("amount", NumberOrNaN(f.amount)),
         ("date", f.date), ("description", f.description)])
  }

  function ItemUrl(id: Value, host: Host): string {
    ListUrl + "/" + ToText(id, host)
  }

  /** The add form's submit handler. */
  function SubmitAdd(f: Form, t: ApiClient.Transport, host: Host): (es: seq<Effect>)
    ensures Sends(es) <==> Valid(f)
    ensures !Valid(f) ==> es == [Notify(Str(InvalidAdd), N.Error)]
    ensures Valid(f) ==> (|es| >= 2 &&
      es[1] == Fetch(ApiClient.Request(ListUrl, Some("POST"), ApiClient.MergeHeaders(map[]), ApiClient.JsonText(Payload(f)))))
  {
    if !Valid(f) then
      var es := [Notify(Str(InvalidAdd), N.Error)];
      assert !es[0].Fetch?;
      es
    else
      ApiClient.WriteMethodsEncode(ListUrl, "POST", map[], Payload(f));
      Mutate(ListUrl, ApiClient.Options(Some("POST"), map[], Payload(f)), t, host, Added(AddedText), AddFailed)
  }

  /** The add form succeeds, resets and reloads exactly when the form is
      valid and the call resolves to a value with a truthy `id`; a rejected
      call leaves the form, the list and the spinner as they were. */
  lemma AddOutcome(f: Form, t: ApiClient.Transport, host: Host)
    ensures Reload in SubmitAdd(f, t, host) <==>
      && Valid(f)
      && ApiClient.FetchApiAsWritten(t, host).settled.Resolved?
      && Truthy(ApiClient.FetchApiAsWritten(t, host).settled.value)
      && Truthy(Field(ApiClient.FetchApiAsWritten(t, host).settled.value, "id"))
    ensures Valid(f) && ApiClient.FetchApiAsWritten(t, host).settled.Rejected? ==>
      && Spinner(false) !in SubmitAdd(f, t, host)
      && ResetForm !in SubmitAdd(f, t, host)
      && Reload !in SubmitAdd(f, t, host)
    ensures Valid(f) && ApiClient.FetchApiAsWritten(t, host).settled == ApiClient.Resolved(Null) ==>
      SubmitAdd(f, t, host)[|SubmitAdd(f, t, host)| - 1] == Uncaught
  {
    var es := SubmitAdd(f, t, host);
    if !Valid(f) {
      assert es == [Notify(Str(InvalidAdd), N.Error)];
    }
    if Valid(f) && ApiClient.FetchApiAsWritten(t, host).settled == ApiClient.Resolved(Null) {
      assert React(Null, "id", AddFailed).Crashed?;
    }
  }

  /** The sort key: `new Date(row.date)` as a time value; None is an
      invalid date, which compares as equal to everything. */
  function DateKey(host: Host): Value -> Option<real> {
    (row: Value) => match host.parseDate(Field(row, "date")) case Some(ms) => Some(ms as real) case None => None
  }

  /** `response.sort((a, b) => new Date(b.date) - new Date(a.date))`. */
  function ByDateDescending(host: Host): seq<Value> -> seq<Value> {
    (rows: seq<Value>) => Ordering.SortDesc(DateKey(host), rows)
  }

  /** `loadTransactions`: `present` says whether the table body exists. */
  function LoadTransactions(t: ApiClient.Transport, host: Host, present: bool): seq<Effect> {
    Load(ListUrl, t, host, present, ByDateDescending(host))
  }

  /** A non-empty list is shown as a reordering of exactly the received rows,
      latest date first when every date parses. */
  lemma LoadedRowsSorted(rows: seq<Value>, host: Host)
    requires |rows| > 0
    ensures Render(Arr(rows), ByDateDescending(host)) == [ClearList, ShowItems(Ordering.SortDesc(DateKey(host), rows))]
    ensures multiset(Ordering.SortDesc(DateKey(host), rows)) == multiset(rows)
    ensures Ordering.AllKeyed(DateKey(host), rows) ==> Ordering.Descending(DateKey(host), Ordering.SortDesc(DateKey(host), rows))
  {
    Ordering.SortPermutes(DateKey(host), rows);
    if Ordering.AllKeyed(DateKey(host), rows) {
      Ordering.SortIsDescending(DateKey(host), rows);
    }
  }

  /** What opening the edit modal produced: effects, the modal, and the text
      put in the date field. */
  datatype Opened = Opened(effects: seq<Effect>, modal: Modal, dateField: Option<string>)

  /** `openEditModal(transaction)`: `present` says whether the modal and its
      form exist. The id is recorded before the date field is filled, so a
      date that is not text throws with the id already set. */
  function OpenEdit(m: Modal, present: bool, tx: Value): (o: Opened)
    ensures !present ==> o == Opened([], m, None)
    ensures present && tx.Obj? && Field(tx, "date").Str? ==>
      && o.modal == Modal(Field(tx, "id"), true)
      && o.effects == [ShowModal]
      && o.dateField.Some?
      && o.dateField.value <= Field(tx, "date").s
      && 'T' !in o.dateField.value
      && (|o.dateField.value| < |Field(tx, "date").s| ==> Field(tx, "date").s[|o.dateField.value|] == 'T')
      && ('T' !in Field(tx, "date").s ==> o.dateField.value == Field(tx, "date").s)
    ensures present && tx.Obj? && !Field(tx, "date").Str? ==>
      o == Opened([Uncaught], Modal(Field(tx, "id"), m.shown), None)
  {
    if !present then Opened([], m, None)
    else match Get(tx, "id")
      case Threw => Opened([Uncaught], m, None)
      case Normal(id) =>
        var date := Field(tx, "date");
        if date.Str? then Opened([ShowModal], Modal(id, true), Some(Text.BeforeFirst(date.s, 'T')))
        else Opened([Uncaught], Modal(id, m.shown), None)
  }

  /** The edit form's submit handler. */
  function SubmitEdit(m: Modal, f: Form, t: ApiClient.Transport, host: Host): (r: (seq<Effect>, Modal))
    ensures !Editing(m) ==> r == ([], m)
    ensures Editing(m) ==> (Sends(r.0) <==> Valid(f))
    ensures Editing(m) && !Valid(f) ==> r == ([Notify(Str(InvalidEdit), N.Error)], m)
  {
    var proceed :=
      if !Valid(f) then [Notify(Str(InvalidEdit), N.Error)]
      else Mutate(ItemUrl(m.editingId, host), ApiClient.Options(Some("PUT"), map[], Payload(f)), t, host,
                  Updated(UpdatedText), UpdateFailed);
    assert !Valid(f) ==> !proceed[0].Fetch?;
    Page.SubmitEdit(m, proceed)
  }

  /** An edit sends `PUT /api/transactions/<id>` for the id being edited, and
      it closes the modal and reloads exactly when the call resolves to a
      value with a truthy `id`; otherwise the modal keeps its state. */
  lemma EditOutcome(m: Modal, f: Form, t: ApiClient.Transport, host: Host)
    requires Editing(m) && Valid(f)
    ensures |SubmitEdit(m, f, t, host).0| >= 2 && SubmitEdit(m, f, t, host).0[1] ==
      Fetch(ApiClient.Request(ItemUrl(m.editingId, host), Some("PUT"), ApiClient.MergeHeaders(map[]), ApiClient.JsonText(Payload(f))))
    ensures var c := ApiClient.FetchApiAsWritten(t, host).settled;
      var ok := c.Resolved? && Truthy(c.value) && Truthy(Field(c.value, "id"));
      && (Reload in SubmitEdit(m, f, t, host).0 <==> ok)
      && (ok ==> SubmitEdit(m, f, t, host).1 == Closed)
      && (!ok ==> SubmitEdit(m, f, t, host).1 == m)
  {
    ApiClient.WriteMethodsEncode(ItemUrl(m.editingId, host), "PUT", map[], Payload(f));
  }

  /** `deleteTransaction(id)`: `confirmed` is the answer to the confirm dialog. */
  function Delete(id: Value, confirmed: bool, t: ApiClient.Transport, host: Host): (es: seq<Effect>)
    ensures !confirmed ==> es == []
    ensures confirmed ==> (Sends(es) && |es| >= 2 &&
      es[1] == Fetch(ApiClient.Request(ItemUrl(id, host), Some("DELETE"), ApiClient.MergeHeaders(map[]), ApiClient.AsIs(Undefined))))
  {
    if !confirmed then []
    else Mutate(ItemUrl(id, host), ApiClient.Options(Some("DELETE"), map[], Undefined), t, host, Deleted, DeleteFailed)
  }

  /** A confirmed delete reloads exactly when the call resolves to a value
      with a truthy `message`, and then shows that message as a success. */
  lemma DeleteOutcome(id: Value, t: ApiClient.Transport, host: Host)
    ensures var c := ApiClient.FetchApiAsWritten(t, host).settled;
      var ok := c.Resolved? && Truthy(c.value) && Truthy(Field(c.value, "message"));
      && (Reload in Delete(id, true, t, host) <==> ok)
      && (ok ==> Notify(Field(c.value, "message"), N.Success) in Delete(id, true, t, host))
  {
    var c := ApiClient.FetchApiAsWritten(t, host).settled;
    var es := Delete(id, true, t, host);
    if c.Resolved? && Truthy(c.value) && Truthy(Field(c.value, "message")) {
      assert es[|es| - 2] == Notify(Field(c.value, "message"), N.Success);
    }
  }
}

=== FILE: wrappers.dfy ===
/** Small failure-compatible helper types shared by every other module. */
module Wrappers {

  /** The conventional Some/None datatype. */
  datatype Option<+T> = None | Some(value: T) {

    /** The encapsulated value, or `default` for None. */
    function GetOr(default: T): T {
      match this
      case Some(v) => v
      case None => default
    }
  }
}
